=== FILE: README.md ===
# Delta Exchange options dashboard — the data pipeline in Dafny

The dashboard fetches the option chain of an exchange and draws two charts:
a strike chart (one curve per option type over strike for one expiry) and a
candlestick chart for one selected instrument. Between the exchange's raw
tickers and those charts sits a small data pipeline, and this project models
it:

- **Symbol parsing** (`parseOptionSymbol`, module `OptionSymbol`). It decodes
  `{C|P}-{ASSET}-{STRIKE}-{DDMMYY}` into an option type, asset, strike, ISO
  date text and the 08:00 UTC settlement timestamp. This uses
  `String.prototype.split` (`Text`), `parseFloat` (`Numbers`) and the
  ISO-date branch of `Date` (`Calendar`, a days-from-civil count). For the
  date text it follows the parser of V8 (Node.js, Chrome) and SpiderMonkey
  (Firefox), which lets a day past the end of a month run on into the next.
- **Normalisation** (`normalizeTicker`, `normalizeOptionChain`, module
  `Normalize`). It turns raw tickers into records with every numeric field
  coerced by `parseFloat(x) || null`. It drops tickers whose symbol does not
  parse, and those whose open interest (`?? 0`) is below the threshold.
  `normalizeOptionChain` is a loop that pushes onto an array, modelled as a
  method proved against the function `NormalizedChain`.
- **Grouping and ranking** (`groupByExpiry`, `topInstrumentsForCandles`,
  modules `Aggregate` and the generic `Grouping`).
  - `groupByExpiry` fills a `Map` in a loop and then sorts its entries. It is
    a method whose loop state is tied to a recursive model of the pushes
    (`Grouping.Fill`).
  - The sort is `Array.prototype.sort`. ECMAScript requires that sort to be
    stable, so it is modelled by a stable insertion sort (`Seqs.SortBy`).
    `Seqs.StableSortUnique` shows that every stable sort gives the same
    result.
- **Series builders** (`buildStrikeSeriesForExpiry`, `buildCandlestickSeries`,
  module `Series`). The strike builder pushes at most two series and is a
  method proved against `StrikeChart`. The candlestick builder is a positional
  zip.
- **The symbol selector** of the candle panel (the `symbols` memo of
  `src/App.jsx`, module `StrikeWindow`). It works in these steps:
  - read the spot price;
  - pick the soonest expiry of the chosen type;
  - sort that expiry's records by strike;
  - find the at-the-money index with a strict-less `forEach` scan (a method
    with a loop);
  - cut a window of ±20 strikes that is shifted inward at the edges, so that
    it always holds min(41, L) strikes.
- **Navigation** (module `Navigation`). This is the clamped symbol index and
  the asset index taken modulo the number of assets.

How the model represents the source's values:

- `NaN` and `null` are `Option.None`. Numbers are `real`, and timestamps are
  `int`.
- JavaScript's `<` and `===` are false when either side is NaN. They are
  modelled as `StrikeWindow.Less` and `StrikeWindow.StrictEq`.
- Zero coercion: the code writes `parseFloat(x) || null`
  (src/utils/dataUtils.js:77-88). A parsed 0 is falsy, so it becomes null
  exactly as NaN does. The model does the same:
  - `Normalize.Coerce` maps both to `None`;
  - `Normalize.CoerceDropsZero` states the consequence.
- Default arguments: `minOpenInterest = 0` is `Normalize.DefaultMinOpenInterest`
  and `metric = 'mark_price'` is `Series.DefaultMetric`. Callers of the
  model pass them explicitly.

## Model

| member | source | states |
|---|---|---|
| Numbers.ParseFloat | src/utils/dataUtils.js:40-41 | `parseFloat` gives a number exactly when, after leading white space and one sign, the text starts with a digit or with `.` and a digit; otherwise NaN |
| Numbers.ParseNatString | src/utils/dataUtils.js:40 | `parseFloat` reads the decimal text of every natural number back as that number |
| Numbers.ParseNonNumeric | src/utils/dataUtils.js:40-41 | text starting with anything but white space, a sign, a digit or `.` parses to NaN |
| Text.SplitJoin | src/utils/dataUtils.js:34 | splitting on `-` undoes joining hyphen-free pieces with `-` |
| Text.JoinSplit | src/utils/dataUtils.js:34 | joining the pieces of a split with `-` gives the original text back |
| Text.Split | src/utils/dataUtils.js:34 | splitting on `-` gives one more piece than there are hyphens, and no piece holds a hyphen |
| Calendar.DayNumberOrder | src/utils/dataUtils.js:48 | on real calendar days the day count is strictly monotone in (year, month, day) and injective |
| Calendar.DayNumber | src/utils/dataUtils.js:48 | the day count of a real calendar day lies within the days of its year |
| Calendar.TimeValue | src/utils/dataUtils.js:48 | for an hour of the day, the whole days of the timestamp are the day count and the rest is that hour |
| OptionSymbol.SettlementTime | src/utils/dataUtils.js:44-48 | the timestamp is a number exactly when the day, month and year fields are all digits, the month is 1–12 and the day 1–31 (V8 and SpiderMonkey; see Left out); its whole days are then the day count of 20YY-MM-DD and the rest of it is 08:00 |
| OptionSymbol.ParseParts | src/utils/dataUtils.js:37-57 | the pieces are accepted iff the first is exactly `C` or `P`, the third parses as a number and the fourth has at least 6 characters; an accepted symbol gives `call` iff the first piece is `C`, the second piece as asset, the parsed strike and the whole fourth piece as raw expiry |
| OptionSymbol.IsoDate | src/utils/dataUtils.js:44-47 | the date text is ten characters `20YY-MM-DD`, from which the year, month and day fields read back unchanged |
| OptionSymbol.ParseOptionSymbol | src/utils/dataUtils.js:32-58 | a parsed symbol had at least three hyphens; its asset and raw expiry hold no hyphen; the raw expiry has at least 6 characters and the date text exactly 10 |
| OptionSymbol.ParseRejects | src/utils/dataUtils.js:33-42 | null for a missing or empty symbol, fewer than four pieces, a first piece other than `C`/`P`, a NaN strike, or an expiry piece shorter than 6 characters |
| OptionSymbol.ParseComposed | src/utils/dataUtils.js:32-58 | round trip: a symbol assembled from a type letter, a hyphen-free asset, strike text and expiry, plus any further pieces, parses back to exactly those fields; extra pieces are ignored and the date is built from the first 6 expiry characters |
| OptionSymbol.ParsedShape | src/utils/dataUtils.js:34-57 | every accepted symbol is such an assembly of the fields it parsed into |
| OptionSymbol.ExpiryOrder | src/utils/dataUtils.js:44-48 | for real calendar days, a smaller settlement timestamp means an earlier date, and conversely |
| OptionSymbol.SettlementBefore2100 | src/utils/dataUtils.js:46-48 | the two-digit year is read as 20YY, so every parsed expiry lies before the year 2100 |
| OptionSymbol.DayRollsOver | src/utils/dataUtils.js:48 | as V8 and SpiderMonkey parse the date, a day past the month's end runs on: `300225` settles at the same instant as `020325` |
| OptionSymbol.ExampleStrike | src/utils/dataUtils.js:4 | the strike of the documented example `C-BTC-95200-200225` reads as 95200 |
| OptionSymbol.ExampleTime | src/utils/dataUtils.js:4 | that example's expiry is 2025-02-20 08:00 UTC = 1740038400000 ms |
| Normalize.Coerce | src/utils/dataUtils.js:77-88 | `parseFloat(x) \|\| null` is a value exactly when the field parses to a non-zero number, and then it is that number |
| Normalize.ParseField | src/utils/dataUtils.js:77-88 | `parseFloat` of an absent field is NaN, of a number the number itself, and of text a number exactly when the text starts as a decimal |
| Normalize.NormalizeTicker | src/utils/dataUtils.js:62-90 | a record exists iff the symbol parses; it carries the symbol and the parsed fields; each of the twelve numeric fields is `parseFloat(x) \|\| null` of its raw field, with a missing `quotes` or `greeks` read as `{}`, so those four fields are then null; every numeric field is null or non-zero |
| Normalize.NormalizedChain | src/utils/dataUtils.js:92-101 | every record kept has `open_interest ?? 0` at least the threshold and coerced numeric fields; the output is no longer than the input |
| Normalize.NormalizeOptionChain | src/utils/dataUtils.js:92-101 | the loop with its two `continue`s returns exactly `NormalizedChain` |
| Normalize.ChainIsFilter | src/utils/dataUtils.js:92-101 | the chain is the normalised tickers filtered by the threshold, in input order |
| Normalize.ChainIsSubsequence | src/utils/dataUtils.js:92-101 | the chain is an order-preserving subsequence of the normalised tickers |
| Normalize.ChainMultiplicity | src/utils/dataUtils.js:92-101 | no deduplication: a record meeting the threshold occurs in the chain as often as it comes out of normalisation, any other record never |
| Normalize.ThresholdInclusive | src/utils/dataUtils.js:97 | a record whose open interest (or 0 for null) equals the threshold is kept |
| Normalize.DefaultThresholdKeeps | src/utils/dataUtils.js:92-97 | under the default threshold 0, a record with null or non-negative open interest is kept as often as it comes out of normalisation |
| Normalize.CoerceDropsZero | src/utils/dataUtils.js:77-88 | `"0"` and `0` both become null |
| Normalize.CoerceKeepsPositive | src/utils/dataUtils.js:77-88 | a positive whole number, as text or as a number, is kept as itself |
| Grouping.FillBucket | src/utils/dataUtils.js:106-110 | after the push loop, the map has an entry exactly for the keys present, holding that key's rows in input order |
| Grouping.FillKeys | src/utils/dataUtils.js:106-110 | the map's insertion order is the order in which the keys are first seen |
| Grouping.Fill | src/utils/dataUtils.js:106-110 | the push loop creates at most one key per row, and at least one key once there is a row |
| Grouping.GroupedIsGrouping | src/utils/dataUtils.js:105-111 | the sorted entries have strictly ascending keys; each group is non-empty and holds exactly its key's rows in input order; a key has a group iff some row has it |
| Aggregate.GroupByExpiry | src/utils/dataUtils.js:105-112 | the Map-filling loop followed by the sort returns `GroupedByExpiry`, and that is a grouping of the records by `expiry_ms` |
| Aggregate.GroupsPartition | src/utils/dataUtils.js:105-111 | a record is in a group iff it has that group's expiry; the group then holds all its occurrences; each group is a subsequence of the input |
| Aggregate.EveryRecordGrouped | src/utils/dataUtils.js:105-111 | every record's expiry is one of the group keys |
| Aggregate.OfType | src/utils/dataUtils.js:116 | only records of the requested type pass, and each record of that type passes as often as it occurs in the input |
| Aggregate.OfTypeInOrder | src/utils/dataUtils.js:116 | the records of the type keep their input order (a subsequence of the input) |
| Seqs.SortBy | src/utils/dataUtils.js:117 | the sort returns a permutation of its input, ordered by the key |
| Seqs.SortByIsStableSort | src/utils/dataUtils.js:117 | the sort is stable: records with equal keys keep their input order |
| Aggregate.SliceEnd | src/utils/dataUtils.js:118 | `slice(0, n)` ends at min(n, L) for n ≥ 0 and at max(0, L + n) for negative n |
| Aggregate.TopInstrumentsForCandles | src/utils/dataUtils.js:114-119 | every result has the requested type; there are `SliceEnd(count of that type, topN)` of them, i.e. min(topN, count) for topN ≥ 0 |
| Aggregate.TopRanked | src/utils/dataUtils.js:117-118 | results are non-increasing in `open_interest ?? 0` and are drawn from the records of that type |
| Aggregate.TopAreLargest | src/utils/dataUtils.js:115-118 | a record of the type that was left out has no more open interest than any record taken |
| Aggregate.TopTiesStable | src/utils/dataUtils.js:117-118 | ties keep input order: for each open-interest value, the records taken are the first ones of the input with that value |
| Aggregate.TopTakesAll | src/utils/dataUtils.js:114-118 | a `topN` of at least the number of records of the type returns every one of them |
| Series.CurveRows | src/utils/dataUtils.js:124-129 | every row of a curve has the curve's type and a non-null metric |
| Series.MetricValue | src/utils/dataUtils.js:125 | `r[metric]` of a normalised record is null or non-zero, so a plotted value is never 0 |
| Series.CurveRowsCount | src/utils/dataUtils.js:124-129 | a curve holds every occurrence of each row of its type with the metric present, and nothing else |
| Series.PointsFollowRows | src/utils/dataUtils.js:135 | point i is `[strike, metric]` of row i |
| Series.CurveShape | src/utils/dataUtils.js:124-143 | the points ascend by strike and are one `[strike, value]` per plottable row |
| Series.CurveEmpty | src/utils/dataUtils.js:132-140 | a curve is empty iff no row of its type has the metric present |
| Series.AssembleShape | src/utils/dataUtils.js:131-148 | a call series is pushed iff there are call points, then a put series iff there are put points; each series is non-empty, and its marker is on iff it has fewer than 30 points |
| Series.Assemble | src/utils/dataUtils.js:131-148 | at most two series are pushed, and none is empty |
| Series.SeriesFor | src/utils/dataUtils.js:133-146 | the series carries its type's name (`CE (Call)`/`PE (Put)`) and colour (`#26a69a`/`#ef5350`), the given points, and markers iff fewer than 30 points |
| Series.BuildStrikeSeriesForExpiry | src/utils/dataUtils.js:123-149 | the two guarded pushes return exactly `StrikeChart` |
| Series.StrikeChart | src/utils/dataUtils.js:123-149 | the chart has at most two series, each with at least one point |
| Series.StrikeChartShape | src/utils/dataUtils.js:123-149 | at most two series, `CE (Call)` before `PE (Put)`; each is present iff its type has a row with the metric; name, colour `#26a69a`/`#ef5350` and curve of its type; marker on iff fewer than 30 points |
| Series.BuildCandlestickSeries | src/utils/dataUtils.js:151-158 | null iff the chart data or its `t` is missing or empty; a missing `o`, `h`, `l` or `c` otherwise throws; a chart has `ohlcData` and `volData` of length `|t|` |
| Series.At | src/utils/dataUtils.js:155 | `arr[i]` is the entry within the array and undefined (null) past its end |
| Series.Candles | src/utils/dataUtils.js:155 | one candle per time, at `time * 1000`, with entry i of `o`, `h`, `l`, `c` (null past their ends) |
| Series.VolumeAt | src/utils/dataUtils.js:156 | `v?.[i] ?? 0` is the entry when `v` has a non-null one at i, and 0 otherwise |
| Series.Bars | src/utils/dataUtils.js:156 | one bar per time, at `time * 1000`, with volume `v?.[i] ?? 0` |
| Series.CandlesRoundTrip | src/utils/dataUtils.js:151-158 | with all arrays as long as `t`, the chart is a lossless zip: times divided by 1000 give `t`, the candles give `o`, `h`, `l`, `c`, the bars give `v` with null read as 0 |
| Series.UnzipCandles | src/utils/dataUtils.js:155 | candle i is `[t[i]*1000, o[i], h[i], l[i], c[i]]`, recovered field by field |
| Series.UnzipVolumes | src/utils/dataUtils.js:156 | the bar volumes are `v[i] ?? 0` |
| Series.MissingVolumeIsZero | src/utils/dataUtils.js:156 | without `v`, past its end, or at a null entry, bar i is `[t[i]*1000, 0]` |
| StrikeWindow.FirstSpot | src/App.jsx:51 | the spot found is truthy (present and non-zero) |
| StrikeWindow.FirstSpotIsFirst | src/App.jsx:51 | the spot is that of the first record with a truthy spot price, and absent iff there is none |
| StrikeWindow.WindowSpot | src/App.jsx:51 | the selector's spot is the first truthy spot price, and 0 when there is none |
| StrikeWindow.WindowSpotDefault | src/App.jsx:51 | the selector's spot is 0 exactly when no record has a truthy spot price |
| StrikeWindow.DisplayedSpot | src/App.jsx:95 | null without data; otherwise exactly the spot price of the first record whose spot price is truthy, and null when there is none |
| StrikeWindow.ReduceMin | src/App.jsx:56-59 | the reduce never rises above its seed and cannot leave a NaN seed |
| StrikeWindow.NearestExpiry | src/App.jsx:56-59 | the nearest expiry is a number only when the first record's is, and is no later than it |
| StrikeWindow.ReduceMinIsLeast | src/App.jsx:56-59 | seeded with a timestamp, the reduce returns the seed or a record's expiry, no larger than the seed or any record's expiry |
| StrikeWindow.NearestIsLeast | src/App.jsx:56-59 | when the first record of the type has an expiry, the nearest expiry is the least expiry among that type's records; when it is NaN the result stays NaN |
| StrikeWindow.ReduceStaysNaN | src/App.jsx:56-59 | from a NaN seed no comparison succeeds and the reduce returns NaN |
| StrikeWindow.AtExpiry | src/App.jsx:62-63 | the filter keeps only records whose expiry is exactly the nearest one |
| StrikeWindow.AtExpiryExact | src/App.jsx:62-63 | each record at that expiry is kept as often as it occurs, no other record is, and input order is kept |
| StrikeWindow.ExpiryRecords | src/App.jsx:62-64 | a rearrangement (same multiset) of the records whose expiry is exactly (`===`) the nearest one, ascending by strike; every one is among the type's records |
| StrikeWindow.ExpiryRecordsStable | src/App.jsx:62-64 | the strike sort is stable: records of equal strike keep the filter's order |
| StrikeWindow.ExpiryRecordsComplete | src/App.jsx:62-64 | nothing at the nearest expiry is lost: a record occurs as often as in the type's records when it has that expiry, else not at all |
| StrikeWindow.Scan | src/App.jsx:67-72 | after n > 0 steps the kept index is below n and `minDist` is its distance; before any step it is `Infinity` with index 0 |
| StrikeWindow.Dist | src/App.jsx:70 | the distance is `Math.abs(strike - spot)`: non-negative and equal to the difference one way or the other |
| StrikeWindow.ScanFindsFirstLeast | src/App.jsx:67-72 | after n steps the kept index has the least distance among the first n and is the first such, because of the strict `<` |
| StrikeWindow.AtmIndex | src/App.jsx:67-72 | the scan settles on an index of the records, or 0 when there are none |
| StrikeWindow.AtmIndexIsAtm | src/App.jsx:67-72 | the scan's final index is the first index of least distance to the spot (0 with no strikes) |
| StrikeWindow.AtmUnique | src/App.jsx:67-72 | there is only one first index of least distance |
| StrikeWindow.FindAtm | src/App.jsx:67-72 | the `forEach` loop returns that index |
| StrikeWindow.WindowFits | src/App.jsx:76-86 | the window lies inside the strikes, contains the at-the-money index and holds min(41, L) strikes (none when there are none) |
| StrikeWindow.WindowStart | src/App.jsx:77-86 | the window starts inside the strikes, at or before the at-the-money index |
| StrikeWindow.WindowEnd | src/App.jsx:77-86 | the window ends after its start, within the strikes and beyond the at-the-money index |
| StrikeWindow.WindowBounds | src/App.jsx:76-86 | the `start`/`end` code with its rebalancing yields the three-case table (ATM ≤ 20: [0, min(L,41)); near the top: [max(0, L−41), L); else [ATM−20, ATM+21)) |
| StrikeWindow.Window | src/App.jsx:76-87 | the slice holds min(41, L) records |
| StrikeWindow.WindowShape | src/App.jsx:87 | the result is a contiguous run of the sorted records, holding min(41, L) of them with the at-the-money one among them |
| StrikeWindow.WindowSorted | src/App.jsx:62-87 | a window of strike-sorted records ascends by strike |
| StrikeWindow.SelectSymbols | src/App.jsx:49-88 | the memo's steps, with the scan and the bounds as methods, return exactly `Symbols` |
| StrikeWindow.Symbols | src/App.jsx:48-88 | there are never more than 41 symbols |
| StrikeWindow.SymbolsEmpty | src/App.jsx:50-55 | no data, or no record of the chosen type, gives no symbols |
| StrikeWindow.SymbolsWindow | src/App.jsx:49-88 | the symbols are the window around the at-the-money strike of the nearest expiry's strike-sorted records, and there are min(41, L) of them |
| StrikeWindow.SymbolsAtNearestExpiry | src/App.jsx:54-64 | every symbol has the chosen type and the nearest expiry |
| StrikeWindow.SymbolsSorted | src/App.jsx:62-87 | the symbols ascend by strike |
| StrikeWindow.ExpiryRecordsOfType | src/App.jsx:54-64 | records at the nearest expiry keep the chosen type |
| Navigation.NavigateClamps | src/App.jsx:145 | the new symbol index is in [0, max(0, len−1)]: the step itself when it stays in the list, else the end it ran past |
| Navigation.NavigateNearest | src/App.jsx:145 | no index of the list is nearer to the requested one than the clamped index |
| Navigation.NavigateWalk | src/App.jsx:145 | any sequence of steps from an index in the list stays in the list |
| Navigation.EffectiveAssets | src/App.jsx:44 | the loaded assets whenever there are any, else the configured ones; empty only when both are |
| Navigation.AssetShown | src/App.jsx:44-45 | the asset shown for an index is the loaded asset at the index modulo their number when any are loaded, else the configured one likewise, else `BTC` |
| Navigation.NavigateSymbol | src/App.jsx:145 | the new symbol index is an index of the list, or 0 for an empty list |
| Navigation.CycleAsset | src/App.jsx:140 | the toggle gives exactly `(i + 1) mod n`: the next index, or 0 after the last; NaN when there are no assets or the index is NaN |
| Navigation.CycleSteps | src/App.jsx:140 | j ≤ n toggles move a valid index j places forward, wrapping once |
| Navigation.CycleFullTurn | src/App.jsx:140 | n toggles return to the starting asset |
| Navigation.DisplayedAsset | src/App.jsx:45 | `BTC` when there are no assets or the index is NaN; otherwise the asset at the index modulo the number of assets, so one of the assets even for a stale index past the end |
| Navigation.CycledAssetExists | src/App.jsx:45 | after a toggle, the displayed asset is one of the assets |

## Left out

- src/api/deltaClient.js and src/hooks/useDeltaData.js are not part of this model. They are network I/O and asynchronous fetch orchestration, and their only data logic is the calls modelled here.
- The candle-fetch effect (src/App.jsx:102-129) is left out. It involves the clock, the network and a cancellation flag for concurrent requests.
- The React state resets (src/App.jsx:34-40, 91-92) are left out. So are the rest of the JSX, and the components under src/components, which are rendering.
- The data fallback `assetData.get(asset) ?? assetData.get(assets[0])` (src/App.jsx:46) is left out. The map of fetched assets belongs to the fetch hook; the selector takes the chosen asset's records (or null) as its input.
- `symbols[symIdx] ?? null` (src/App.jsx:94) and `strikeRecords` (src/App.jsx:96-99) are not separate members. The first is an index lookup. The second is `Aggregate.OfType` with null data read as no records.
- Numbers are mathematical reals, not IEEE-754 doubles: rounding, `-0`, overflow to `Infinity` and the literal `Infinity` are not modelled.
  - `Numbers.ParseFloat` reads the decimal prefix exactly.
  - `StrikeWindow.FindAtm` starts from `None` where the source starts from `Infinity`.
- Text is a sequence of characters. The source's `length` and `slice` count UTF-16 code units, so a symbol holding characters outside the Basic Multilingual Plane would be measured and cut differently (for example by `expiryStr.length < 6`); that is not modelled.
- Numbers.ParseFloat: skips only the ASCII and Latin-1 white space, the line and paragraph separators and the byte-order mark, not every Unicode space character. It does not read `Infinity`.
- OptionSymbol.SettlementTime: models only the ISO form of the date text. A field that is not all digits, a month outside 1–12 or a day outside 1–31 gives NaN. The engine's fallback parser for non-ISO text is not modelled.
- Aggregate.GroupByExpiry: requires every record to have a real expiry timestamp. With a NaN key the comparator `a[0] - b[0]` is inconsistent, and the order of the sorted entries is then left to the engine.
- OptionSymbol.SettlementTime / OptionSymbol.DayRollsOver: follow the V8 and SpiderMonkey date parsers, which accept a day up to 31 in any month and roll it over into the next month. ECMAScript leaves out-of-range date fields to the implementation, and JavaScriptCore (Safari) checks the day against the month's length and gives NaN for a day past the month's end (for example `300225`). That behaviour is not modelled.
- Aggregate.TopInstrumentsForCandles: `topN` is an integer. Other values of `topN` are not modelled: `slice` truncates a fraction toward zero, takes the whole array for `undefined`, and reads `null`, `NaN` and text that is not a number as 0.
- Series.BuildStrikeSeriesForExpiry: the metric ranges over the record's twelve numeric fields (`Series.Metric`). The source accepts any key: `strike` or `expiry_ms` would plot those numbers, a text field such as `symbol` would plot text, and a key the record lacks reads `undefined`, leaving both curves empty. None of these is modelled.
- Series.BuildCandlestickSeries: a missing `o`, `h`, `l` or `c` is modelled as a `TypeError` outcome rather than as a thrown exception. The shape of an array entry that is not a number is not modelled.
- `RESOLUTIONS` and `METRICS` (src/utils/dataUtils.js:7-28) are constant tables for the control bar and are not modelled.

=== FILE: aggregate.dfy ===
/**
 * Grouping and ranking of option records: `groupByExpiry` and
 * `topInstrumentsForCandles` in src/utils/dataUtils.js.
 */
module Aggregate {
  import opened Wrappers
  import opened Seqs
  import opened OptionSymbol
  import opened Normalize
  import opened Grouping

  /** Every record carries a real (non-NaN) expiry timestamp. */
  predicate AllDated(records: seq<Record>) {
    forall i :: 0 <= i < |records| ==> records[i].expiryMs.Some?
  }

  /** The grouping key `expiry_ms`; only consulted for dated records. */
  function ExpiryKey(r: Record): int {
    match r.expiryMs
    case Some(ms) => ms
    case None => 0
  }

  /** What `groupByExpiry` returns: one group per expiry, by ascending expiry. */
  function GroupedByExpiry(records: seq<Record>): seq<Group<Record>> {
    Grouped(records, ExpiryKey)
  }

  method GroupByExpiry(records: seq<Record>) returns (groups: seq<Group<Record>>)
    requires AllDated(records)
    ensures groups == GroupedByExpiry(records)
    ensures IsGrouping(groups, records, ExpiryKey)
  {
    var keys: seq<int> := [];
    var buckets: map<int, seq<Record>> := map[];
    for i := 0 to |records|
      invariant (keys, buckets) == Fill(records[..i], ExpiryKey)
    {
      var row := records[i];
      assert records[..i + 1][..i] == records[..i];
      var k := row.expiryMs.value;
      assert ExpiryKey(row) == k;
      ghost var next := Fill(records[..i + 1], ExpiryKey).1;
      assert next == buckets[k := (if k in buckets then buckets[k] else []) + [row]];
      if k !in buckets {
        buckets := buckets[k := []];
        keys := keys + [k];
      }
      buckets := buckets[k := buckets[k] + [row]];
      assert buckets == next;
    }
    assert records[..|records|] == records;
    FillKeys(records, ExpiryKey);
    forall j | 0 <= j < |keys| ensures keys[j] in buckets && buckets[keys[j]] == Bucket(records, ExpiryKey, keys[j]) {
      FillBucket(records, ExpiryKey, keys[j]);
    }
    var entries := seq(|keys|, j requires 0 <= j < |keys| => Group(keys[j], buckets[keys[j]]));
    assert entries == Entries(records, ExpiryKey);
    groups := SortBy(entries, Rank);
    GroupedIsGrouping(records, ExpiryKey);
  }

  /**
   * The groups partition the input: a record lies in exactly the group of
   * its own expiry, with all its occurrences, and each group keeps input order.
   */
  lemma GroupsPartition(records: seq<Record>, x: Record, i: nat)
    requires AllDated(records) && x in records
    requires i < |GroupedByExpiry(records)|
    ensures var g := GroupedByExpiry(records)[i];
            && (x in g.rows <==> x.expiryMs == Some(g.key))
            && (x in g.rows ==> multiset(g.rows)[x] == multiset(records)[x])
            && IsSubsequence(g.rows, records)
  {
    GroupedIsGrouping(records, ExpiryKey);
    var g := GroupedByExpiry(records)[i];
    BucketMember(records, ExpiryKey, g.key, x);
    BucketCount(records, ExpiryKey, g.key, x);
    BucketSubsequence(records, ExpiryKey, g.key);
  }

  /** Every record has a group. */
  lemma EveryRecordGrouped(records: seq<Record>, x: Record)
    requires AllDated(records) && x in records
    ensures x.expiryMs.Some? && x.expiryMs.value in KeysOf(GroupedByExpiry(records))
  {
    GroupedCovers(records, ExpiryKey, ExpiryKey(x));
    BucketMember(records, ExpiryKey, ExpiryKey(x), x);
  }

  /**
   * The records of one option type, in input order: every occurrence of a
   * record of that type and nothing else (`OfTypeInOrder` for the order).
   */
  function OfType(records: seq<Record>, t: OptionType): (r: seq<Record>)
    ensures forall i :: 0 <= i < |r| ==> r[i].optionType == t
    ensures forall x :: multiset(r)[x] == if x.optionType == t then multiset(records)[x] else 0
  {
    var kept := Filter(records, (r: Record) => r.optionType == t);
    forall x ensures multiset(kept)[x] == if x.optionType == t then multiset(records)[x] else 0 {
      FilterCount(records, (r: Record) => r.optionType == t, x);
    }
    kept
  }

  /** The records of the type keep their input order. */
  lemma OfTypeInOrder(records: seq<Record>, t: OptionType)
    ensures IsSubsequence(OfType(records, t), records)
  {
    FilterIsSubsequence(records, (r: Record) => r.optionType == t);
  }

  /** Sort key for descending open interest (`?? 0` for null). */
  function NegOi(r: Record): real {
    -OiOrZero(r)
  }

  /** The end index `Array.prototype.slice(0, n)` uses on an array of length `len`. */
  function SliceEnd(len: nat, n: int): (e: nat)
    ensures e <= len
    ensures n >= 0 ==> e == Min(n, len)
    ensures n < 0 ==> e == Max(0, len + n)
  {
    if n < 0 then (if len + n < 0 then 0 else len + n)
    else if n < len then n else len
  }

  function TopInstrumentsForCandles(records: seq<Record>, t: OptionType, topN: int): (r: seq<Record>)
    ensures |r| == SliceEnd(|OfType(records, t)|, topN)
    ensures forall i :: 0 <= i < |r| ==> r[i].optionType == t
  {
    var ranked := SortBy(OfType(records, t), NegOi);
    var n := SliceEnd(|ranked|, topN);
    TakeSorted(ranked, n, NegOi);
    forall i | 0 <= i < n ensures ranked[i].optionType == t {
      SortByMember(OfType(records, t), NegOi, i);
    }
    ranked[..n]
  }

  /** The result is ranked by non-increasing open interest and takes only records of the input. */
  lemma TopRanked(records: seq<Record>, t: OptionType, topN: int)
    ensures var r := TopInstrumentsForCandles(records, t, topN);
            && (forall i, j :: 0 <= i < j < |r| ==> OiOrZero(r[i]) >= OiOrZero(r[j]))
            && multiset(r) <= multiset(OfType(records, t))
  {
    var ranked := SortBy(OfType(records, t), NegOi);
    TakeSorted(ranked, |TopInstrumentsForCandles(records, t, topN)|, NegOi);
  }

  /**
   * The ranking is the top of the list: a record of the type that was left
   * out (some copy of it not taken) has no more open interest than any taken one.
   */
  lemma TopAreLargest(records: seq<Record>, t: OptionType, topN: int, x: Record, i: nat)
    requires x.optionType == t
    requires multiset(TopInstrumentsForCandles(records, t, topN))[x] < multiset(records)[x]
    requires i < |TopInstrumentsForCandles(records, t, topN)|
    ensures OiOrZero(x) <= OiOrZero(TopInstrumentsForCandles(records, t, topN)[i])
  {
    var ranked := SortBy(OfType(records, t), NegOi);
    var top := TopInstrumentsForCandles(records, t, topN);
    assert top == ranked[..|top|];
    assert multiset(ranked)[x] == multiset(records)[x];
    LeftOutRanksLower(ranked, |top|, NegOi, x, i);
  }

  /** A limit of at least the number of records of the type takes every one of them. */
  lemma TopTakesAll(records: seq<Record>, t: OptionType, topN: int)
    requires topN >= |OfType(records, t)|
    ensures multiset(TopInstrumentsForCandles(records, t, topN)) == multiset(OfType(records, t))
  {
    var ranked := SortBy(OfType(records, t), NegOi);
    assert TopInstrumentsForCandles(records, t, topN) == ranked[..|ranked|] == ranked;
  }

  /**
   * Ties keep input order: among records of equal open interest, the ones
   * taken are the first ones of the input.
   */
  lemma TopTiesStable(records: seq<Record>, t: OptionType, topN: int, k: real)
    ensures WithKey(TopInstrumentsForCandles(records, t, topN), NegOi, k)
            <= WithKey(OfType(records, t), NegOi, k)
  {
    var ranked := SortBy(OfType(records, t), NegOi);
    var top := TopInstrumentsForCandles(records, t, topN);
    assert top == ranked[..|top|];
    PrefixWithKey(ranked, |top|, NegOi, k);
    SortByStable(OfType(records, t), NegOi, k);
  }
}

=== FILE: calendar.dfy ===
/**
 * Proleptic Gregorian calendar arithmetic in UTC, as ECMAScript's MakeDay
 * and MakeDate compute it: a time value counts milliseconds from
 * 1970-01-01T00:00:00Z.
 */
module Calendar {

  const MsPerDay := 86_400_000
  const MsPerHour := 3_600_000

  predicate IsLeap(y: int) {
    y % 4 == 0 && (y % 100 != 0 || y % 400 == 0)
  }

  function DaysInMonth(y: int, m: int): (n: int)
    requires 1 <= m <= 12
    ensures 28 <= n <= 31
  {
    if m == 2 then (if IsLeap(y) then 29 else 28)
    else if m == 4 || m == 6 || m == 9 || m == 11 then 30
    else 31
  }

  function DaysInYear(y: int): int {
    if IsLeap(y) then 366 else 365
  }

  /** Days from 1970-01-01 to January 1st of year `y`. */
  function DaysBeforeYear(y: int): int
    requires y >= 1970
  {
    365 * (y - 1970) + (y - 1969) / 4 - (y - 1901) / 100 + (y - 1601) / 400
  }

  /** Days from January 1st to the first day of month `m` of year `y`. */
  function DaysBeforeMonth(y: int, m: int): int
    requires 1 <= m <= 12
  {
    var table := [0, 31, 59, 90, 120, 151, 181, 212, 243, 273, 304, 334];
    table[m - 1] + (if m > 2 && IsLeap(y) then 1 else 0)
  }

  /**
   * Days from 1970-01-01 to day `d` of month `m` of year `y`. A day past the
   * end of its month runs on into the next month, as MakeDay does (the V8
   * and SpiderMonkey date parsers pass such a day on to it).
   */
  function DayNumber(y: int, m: int, d: int): (n: int)
    requires y >= 1970 && 1 <= m <= 12
    ensures ValidDate(y, m, d) ==> DaysBeforeYear(y) <= n < DaysBeforeYear(y) + DaysInYear(y)
  {
    DayInYear(y, m, d);
    DaysBeforeYear(y) + DaysBeforeMonth(y, m) + d - 1
  }

  /**
   * The time value of hour `h` (UTC) of the given day: for an hour of the
   * day, the whole days count the day number and the rest is the hour.
   */
  function TimeValue(y: int, m: int, d: int, h: int): (t: int)
    requires y >= 1970 && 1 <= m <= 12
    ensures 0 <= h < 24 ==> t / MsPerDay == DayNumber(y, m, d) && t % MsPerDay == h * MsPerHour
  {
    SplitTime(DayNumber(y, m, d), h);
    DayNumber(y, m, d) * MsPerDay + h * MsPerHour
  }

  lemma SplitTime(k: int, h: int)
    ensures 0 <= h < 24 ==> (k * MsPerDay + h * MsPerHour) / MsPerDay == k
    ensures 0 <= h < 24 ==> (k * MsPerDay + h * MsPerHour) % MsPerDay == h * MsPerHour
  {
    if 0 <= h < 24 {
      var t := k * MsPerDay + h * MsPerHour;
      assert 0 <= h * MsPerHour < MsPerDay;
      assert t == MsPerDay * (t / MsPerDay) + t % MsPerDay;
    }
  }

  predicate ValidDate(y: int, m: int, d: int) {
    y >= 1970 && 1 <= m <= 12 && 1 <= d <= DaysInMonth(y, m)
  }

  predicate DateBefore(y1: int, m1: int, d1: int, y2: int, m2: int, d2: int) {
    y1 < y2 || (y1 == y2 && (m1 < m2 || (m1 == m2 && d1 < d2)))
  }

  lemma YearLength(y: int)
    requires y >= 1970
    ensures DaysBeforeYear(y + 1) == DaysBeforeYear(y) + DaysInYear(y)
  {
    LeapCount(y);
    Divisibility(y);
    var four := (y - 1968) / 4 - (y - 1969) / 4;
    var hundred := (y - 1900) / 100 - (y - 1901) / 100;
    var fourHundred := (y - 1600) / 400 - (y - 1601) / 400;
    assert DaysBeforeYear(y + 1) - DaysBeforeYear(y) == 365 + four - hundred + fourHundred;
    assert four - hundred + fourHundred == if IsLeap(y) then 1 else 0;
  }

  /** A multiple of 400 is a multiple of 100, and a multiple of 100 one of 4. */
  lemma Divisibility(y: int)
    ensures y % 400 == 0 ==> y % 100 == 0
    ensures y % 100 == 0 ==> y % 4 == 0
  {
    var q4, q100, q400 := y / 4, y / 100, y / 400;
    assert y == 400 * q400 + y % 400;
    assert y == 100 * q100 + y % 100;
    assert y == 4 * q4 + y % 4;
    if y % 400 == 0 {
      assert y == 100 * (4 * q400);
    }
    if y % 100 == 0 {
      assert y == 4 * (25 * q100);
    }
  }

  /** The three leap-year corrections of DaysBeforeYear step exactly at leap years. */
  lemma LeapCount(y: int)
    requires y >= 1970
    ensures (y - 1968) / 4 - (y - 1969) / 4 == if y % 4 == 0 then 1 else 0
    ensures (y - 1900) / 100 - (y - 1901) / 100 == if y % 100 == 0 then 1 else 0
    ensures (y - 1600) / 400 - (y - 1601) / 400 == if y % 400 == 0 then 1 else 0
  {
    StepFour(y - 1969);
    StepHundred(y - 1901);
    StepFourHundred(y - 1601);
  }

  lemma StepFour(a: int)
    ensures (a + 1) / 4 - a / 4 == if (a + 1969) % 4 == 0 then 1 else 0
  {
    var q, r := a / 4, a % 4;
    assert a + 1969 == 4 * (q + 492) + r + 1;
  }

  lemma StepHundred(a: int)
    ensures (a + 1) / 100 - a / 100 == if (a + 1901) % 100 == 0 then 1 else 0
  {
    var q, r := a / 100, a % 100;
    assert a + 1901 == 100 * (q + 19) + r + 1;
  }

  lemma StepFourHundred(a: int)
    ensures (a + 1) / 400 - a / 400 == if (a + 1601) % 400 == 0 then 1 else 0
  {
    var q, r := a / 400, a % 400;
    assert a + 1601 == 400 * (q + 4) + r + 1;
  }

  lemma MonthLength(y: int, m: int)
    requires 1 <= m <= 12
    ensures m < 12 ==> DaysBeforeMonth(y, m + 1) == DaysBeforeMonth(y, m) + DaysInMonth(y, m)
    ensures m == 12 ==> DaysBeforeMonth(y, m) + DaysInMonth(y, m) == DaysInYear(y)
  {
  }

  lemma {:induction false} YearsAscend(y1: int, y2: int)
    requires 1970 <= y1 < y2
    ensures DaysBeforeYear(y1) + DaysInYear(y1) <= DaysBeforeYear(y2)
    decreases y2 - y1
  {
    YearLength(y1);
    if y1 + 1 < y2 {
      YearsAscend(y1 + 1, y2);
    }
  }

  lemma {:induction false} MonthsAscend(y: int, m1: int, m2: int)
    requires 1 <= m1 < m2 <= 12
    ensures DaysBeforeMonth(y, m1) + DaysInMonth(y, m1) <= DaysBeforeMonth(y, m2)
    decreases m2 - m1
  {
    MonthLength(y, m1);
    if m1 + 1 < m2 {
      MonthsAscend(y, m1 + 1, m2);
    }
  }

  /** A valid date is one of the days of its year. */
  lemma DayInYear(y: int, m: int, d: int)
    requires 1 <= m <= 12
    ensures ValidDate(y, m, d) ==> 0 <= DaysBeforeMonth(y, m) + d - 1 < DaysInYear(y)
  {
    if ValidDate(y, m, d) {
      if m < 12 {
        MonthsAscend(y, m, 12);
      }
      MonthLength(y, 12);
    }
  }

  /** On valid dates, day numbers order exactly as the calendar does. */
  lemma DayNumberOrder(y1: int, m1: int, d1: int, y2: int, m2: int, d2: int)
    requires ValidDate(y1, m1, d1) && ValidDate(y2, m2, d2)
    ensures DateBefore(y1, m1, d1, y2, m2, d2) <==> DayNumber(y1, m1, d1) < DayNumber(y2, m2, d2)
    ensures (y1, m1, d1) == (y2, m2, d2) <==> DayNumber(y1, m1, d1) == DayNumber(y2, m2, d2)
  {
    if y1 < y2 {
      YearsAscend(y1, y2);
    } else if y2 < y1 {
      YearsAscend(y2, y1);
    } else if m1 < m2 {
      MonthsAscend(y1, m1, m2);
    } else if m2 < m1 {
      MonthsAscend(y1, m2, m1);
    }
  }
}

=== FILE: grouping.dfy ===
/**
 * Grouping a sequence by an integer key, the way a JavaScript `Map` is
 * filled in a loop: keys are remembered in the order first seen and each
 * key's bucket receives its elements in input order.
 */
module Grouping {
  import opened Seqs

  datatype Group<T> = Group(key: int, rows: seq<T>)

  /** The elements of `s` with key `k`, in input order. */
  function Bucket<T>(s: seq<T>, key: T -> int, k: int): (r: seq<T>)
    ensures |r| <= |s|
    ensures forall i :: 0 <= i < |r| ==> key(r[i]) == k
  {
    if s == [] then []
    else Bucket(s[..|s| - 1], key, k) + (if key(s[|s| - 1]) == k then [s[|s| - 1]] else [])
  }

  lemma {:induction false} BucketMember<T>(s: seq<T>, key: T -> int, k: int, x: T)
    ensures x in Bucket(s, key, k) <==> x in s && key(x) == k
  {
    if s != [] {
      var front := s[..|s| - 1];
      BucketMember(front, key, k, x);
      assert s == front + [s[|s| - 1]];
    }
  }

  /** A bucket holds every occurrence of each element with its key. */
  lemma {:induction false} BucketCount<T>(s: seq<T>, key: T -> int, k: int, x: T)
    ensures multiset(Bucket(s, key, k))[x] == if key(x) == k then multiset(s)[x] else 0
  {
    if s != [] {
      var front := s[..|s| - 1];
      BucketCount(front, key, k, x);
      assert s == front + [s[|s| - 1]];
    }
  }

  lemma {:induction false} BucketSubsequence<T>(s: seq<T>, key: T -> int, k: int)
    ensures IsSubsequence(Bucket(s, key, k), s)
  {
    if s != [] {
      var front, last := s[..|s| - 1], s[|s| - 1];
      BucketSubsequence(front, key, k);
      var b := Bucket(front, key, k);
      if key(last) == k {
        assert (b + [last])[..|b|] == b;
      } else {
        assert Bucket(s, key, k) == b;
        SubsequenceExtend(b, front, last);
        assert front + [last] == s;
      }
    }
  }

  /** The keys of `s` in the order they first occur. */
  function FirstSeen<T>(s: seq<T>, key: T -> int): (keys: seq<int>)
    ensures forall i, j :: 0 <= i < j < |keys| ==> keys[i] != keys[j]
    ensures forall k :: k in keys <==> Bucket(s, key, k) != []
  {
    if s == [] then []
    else
      var before := FirstSeen(s[..|s| - 1], key);
      var k := key(s[|s| - 1]);
      if k in before then before else before + [k]
  }

  /**
   * The key order and buckets after pushing each element of `s` in turn:
   * at most one new key per element, and some key as soon as there is an
   * element (`FillBucket` and `FillKeys` say which keys and buckets).
   */
  function Fill<T>(s: seq<T>, key: T -> int): (p: (seq<int>, map<int, seq<T>>))
    ensures |p.0| <= |s|
    ensures p.0 == [] <==> s == []
  {
    if s == [] then ([], map[])
    else
      var (keys, buckets) := Fill(s[..|s| - 1], key);
      var x := s[|s| - 1];
      var k := key(x);
      (if k in buckets then keys else keys + [k],
       buckets[k := (if k in buckets then buckets[k] else []) + [x]])
  }

  /** The filled map has a bucket exactly for the keys present, holding that key's elements. */
  lemma {:induction false} FillBucket<T>(s: seq<T>, key: T -> int, k: int)
    ensures k in Fill(s, key).1 <==> Bucket(s, key, k) != []
    ensures k in Fill(s, key).1 ==> Fill(s, key).1[k] == Bucket(s, key, k)
  {
    if s != [] {
      FillBucket(s[..|s| - 1], key, k);
      FillBucket(s[..|s| - 1], key, key(s[|s| - 1]));
    }
  }

  /** The map's key order is first-seen order. */
  lemma {:induction false} FillKeys<T>(s: seq<T>, key: T -> int)
    ensures Fill(s, key).0 == FirstSeen(s, key)
  {
    if s != [] {
      FillKeys(s[..|s| - 1], key);
      FillBucket(s[..|s| - 1], key, key(s[|s| - 1]));
    }
  }

  /** One group per key of `keys`, in that order. */
  function GroupsFor<T>(s: seq<T>, key: T -> int, keys: seq<int>): (gs: seq<Group<T>>)
    ensures |gs| == |keys|
    ensures forall i :: 0 <= i < |gs| ==> gs[i] == Group(keys[i], Bucket(s, key, keys[i]))
  {
    if keys == [] then []
    else [Group(keys[0], Bucket(s, key, keys[0]))] + GroupsFor(s, key, keys[1..])
  }

  /** The entries of the filled map, in insertion order. */
  function Entries<T>(s: seq<T>, key: T -> int): seq<Group<T>> {
    GroupsFor(s, key, FirstSeen(s, key))
  }

  function Rank<T>(g: Group<T>): real {
    g.key as real
  }

  /** The entries sorted by ascending key. */
  function Grouped<T>(s: seq<T>, key: T -> int): seq<Group<T>> {
    SortBy(Entries(s, key), Rank)
  }

  function KeysOf<T>(groups: seq<Group<T>>): (keys: seq<int>)
    ensures |keys| == |groups|
    ensures forall i :: 0 <= i < |keys| ==> keys[i] == groups[i].key
  {
    if groups == [] then [] else [groups[0].key] + KeysOf(groups[1..])
  }

  /** `groups` splits `s` by key: ascending distinct keys, one non-empty bucket per key present. */
  ghost predicate IsGrouping<T>(groups: seq<Group<T>>, s: seq<T>, key: T -> int) {
    && (forall i, j :: 0 <= i < j < |groups| ==> groups[i].key < groups[j].key)
    && (forall i :: 0 <= i < |groups| ==>
          groups[i].rows != [] && groups[i].rows == Bucket(s, key, groups[i].key))
    && (forall k :: k in KeysOf(groups) <==> Bucket(s, key, k) != [])
  }

  lemma EntryShape<T>(s: seq<T>, key: T -> int, g: Group<T>)
    requires g in multiset(Entries(s, key))
    ensures g.rows == Bucket(s, key, g.key) && g.rows != []
  {
    var keys := FirstSeen(s, key);
    var a :| 0 <= a < |keys| && Entries(s, key)[a] == g;
  }

  lemma EntriesDistinct<T>(s: seq<T>, key: T -> int)
    ensures forall x :: multiset(Entries(s, key))[x] <= 1
  {
    var e := Entries(s, key);
    var keys := FirstSeen(s, key);
    assert forall i :: 0 <= i < |e| ==> e[i].key == keys[i];
    CountAtMostOne(e);
  }

  lemma GroupedKeysAscend<T>(s: seq<T>, key: T -> int)
    ensures var r := Grouped(s, key);
            forall i, j :: 0 <= i < j < |r| ==> r[i].key < r[j].key
  {
    var e := Entries(s, key);
    var r := Grouped(s, key);
    EntriesDistinct(s, key);
    forall i, j | 0 <= i < j < |r| ensures r[i].key < r[j].key {
      assert Rank(r[i]) <= Rank(r[j]);
      if r[i].key == r[j].key {
        EntryShape(s, key, r[i]);
        EntryShape(s, key, r[j]);
        CountTwo(r, i, j);
      }
    }
  }

  lemma GroupedCovers<T>(s: seq<T>, key: T -> int, k: int)
    ensures k in KeysOf(Grouped(s, key)) <==> Bucket(s, key, k) != []
  {
    var keys := FirstSeen(s, key);
    var e := Entries(s, key);
    var r := Grouped(s, key);
    if k in KeysOf(r) {
      var i :| 0 <= i < |r| && r[i].key == k;
      assert r[i] in multiset(e);
      EntryShape(s, key, r[i]);
    }
    if Bucket(s, key, k) != [] {
      var a :| 0 <= a < |keys| && keys[a] == k;
      assert e[a] in multiset(r);
      var i :| 0 <= i < |r| && r[i] == e[a];
      assert KeysOf(r)[i] == k;
    }
  }

  lemma GroupedIsGrouping<T>(s: seq<T>, key: T -> int)
    ensures IsGrouping(Grouped(s, key), s, key)
  {
    var r := Grouped(s, key);
    GroupedKeysAscend(s, key);
    forall i | 0 <= i < |r| ensures r[i].rows != [] && r[i].rows == Bucket(s, key, r[i].key) {
      assert r[i] in multiset(r);
      EntryShape(s, key, r[i]);
    }
    forall k ensures k in KeysOf(r) <==> Bucket(s, key, k) != [] {
      GroupedCovers(s, key, k);
    }
  }
}

=== FILE: navigation.dfy ===
/**
 * Index arithmetic of the control bar in src/App.jsx: stepping through the
 * symbol list with the index clamped to the list, and toggling through the
 * assets with the index taken modulo their number.
 */
module Navigation {
  import opened Wrappers

  /** The asset shown when the index selects nothing. */
  const FallbackAsset := "BTC"

  /** `Math.max(0, Math.min(count - 1, i + dir))`. */
  function NavigateSymbol(i: int, dir: int, count: nat): (j: int)
    ensures count > 0 ==> 0 <= j < count
    ensures count == 0 ==> j == 0
  {
    Max(0, Min(count - 1, i + dir))
  }

  function Gap(a: int, b: int): nat {
    if a >= b then a - b else b - a
  }

  /**
   * The new index is always in [0, max(0, count - 1)]: the step itself when
   * it stays in the list, otherwise the end it ran past.
   */
  lemma NavigateClamps(i: int, dir: int, count: nat)
    ensures var j := NavigateSymbol(i, dir, count);
            && 0 <= j <= Max(0, count - 1)
            && (0 <= i + dir < count ==> j == i + dir)
            && (i + dir < 0 ==> j == 0)
            && (i + dir >= count ==> j == Max(0, count - 1))
  {
  }

  /** No index of the list is nearer to the requested one than the clamped index. */
  lemma NavigateNearest(i: int, dir: int, count: nat, k: int)
    requires 0 <= k <= Max(0, count - 1)
    ensures Gap(NavigateSymbol(i, dir, count), i + dir) <= Gap(k, i + dir)
  {
  }

  /** Any sequence of steps from an index in the list ends in the list. */
  lemma {:induction false} NavigateWalk(i: int, dirs: seq<int>, count: nat)
    requires 0 <= i < count
    ensures 0 <= Walk(i, dirs, count) < count
    decreases |dirs|
  {
    if dirs != [] {
      NavigateWalk(NavigateSymbol(i, dirs[0], count), dirs[1..], count);
    }
  }

  /** The index after a sequence of navigation steps. */
  function Walk(i: int, dirs: seq<int>, count: nat): int
    decreases |dirs|
  {
    if dirs == [] then i else Walk(NavigateSymbol(i, dirs[0], count), dirs[1..], count)
  }

  /** `assets.length > 0 ? assets : settings.assets`: the loaded assets, else the configured ones. */
  function EffectiveAssets(loaded: seq<string>, configured: seq<string>): (r: seq<string>)
    ensures loaded != [] ==> r == loaded
    ensures loaded == [] ==> r == configured
    ensures r == [] <==> loaded == [] && configured == []
  {
    if |loaded| > 0 then loaded else configured
  }

  /** `(i + 1) % effectiveAssets.length`; the index is NaN (`None`) once taken modulo 0. */
  function CycleAsset(idx: Option<nat>, n: nat): (r: Option<nat>)
    ensures r.Some? <==> idx.Some? && n > 0
    ensures r.Some? ==> r.value < n
    ensures r.Some? && idx.value + 1 < n ==> r.value == idx.value + 1
    ensures r.Some? && idx.value + 1 == n ==> r.value == 0
    ensures r.Some? ==> r.value == (idx.value + 1) % n
  {
    if idx.None? || n == 0 then None else Some((idx.value + 1) % n)
  }

  /** The asset index after `k` toggles. */
  function CycleTimes(idx: Option<nat>, n: nat, k: nat): Option<nat> {
    if k == 0 then idx else CycleAsset(CycleTimes(idx, n, k - 1), n)
  }

  /** From a valid index, `j <= n` toggles move it `j` places forward, wrapping once past the end. */
  lemma {:induction false} CycleSteps(i: nat, n: nat, j: nat)
    requires i < n && j <= n
    ensures CycleTimes(Some(i), n, j) == Some(if i + j < n then i + j else i + j - n)
  {
    if j > 0 {
      CycleSteps(i, n, j - 1);
    }
  }

  /** Toggling once per asset returns to the asset one started from. */
  lemma CycleFullTurn(i: nat, n: nat)
    requires i < n
    ensures CycleTimes(Some(i), n, n) == Some(i)
  {
    CycleSteps(i, n, n);
  }

  /** `effectiveAssets[assetIdx % effectiveAssets.length] ?? 'BTC'`. */
  function DisplayedAsset(effective: seq<string>, idx: Option<nat>): (a: string)
    ensures effective == [] || idx.None? ==> a == FallbackAsset
    ensures idx.Some? && idx.value < |effective| ==> a == effective[idx.value]
    ensures idx.Some? && effective != [] ==> a == effective[idx.value % |effective|] && a in effective
  {
    if idx.None? || |effective| == 0 then FallbackAsset
    else effective[idx.value % |effective|]
  }

  /**
   * The asset in the control bar, from the loaded and the configured lists:
   * a loaded asset whenever any are loaded, else a configured one, else `BTC`.
   */
  lemma AssetShown(loaded: seq<string>, configured: seq<string>, idx: nat)
    ensures var a := DisplayedAsset(EffectiveAssets(loaded, configured), Some(idx));
            && (loaded != [] ==> a == loaded[idx % |loaded|])
            && (loaded == [] && configured != [] ==> a == configured[idx % |configured|])
            && (loaded == [] && configured == [] ==> a == FallbackAsset)
  {
  }

  /** Every index the toggle produces names an existing asset. */
  lemma CycledAssetExists(effective: seq<string>, idx: Option<nat>)
    requires idx.Some? && effective != []
    ensures DisplayedAsset(effective, CycleAsset(idx, |effective|)) in effective
  {
  }
}

=== FILE: normalize.dfy ===
/**
 * From raw exchange tickers to canonical option records:
 * `normalizeTicker` and `normalizeOptionChain` in src/utils/dataUtils.js.
 */
module Normalize {
  import opened Wrappers
  import opened Numbers
  import opened Seqs
  import opened OptionSymbol

  /** A numeric field of the raw payload: absent (undefined or null), a string, or a JSON number. */
  datatype RawField = Absent | Str(text: string) | Num(number: real)

  datatype Quotes = Quotes(bestBid: RawField, bestAsk: RawField, bidIv: RawField, askIv: RawField)

  datatype Greeks = Greeks(delta: RawField, gamma: RawField, theta: RawField, vega: RawField)

  /** The fields of an exchange ticker the dashboard reads; `quotes` and `greeks` may be missing. */
  datatype RawTicker = RawTicker(
    symbol: Option<string>,
    markPrice: RawField,
    spotPrice: RawField,
    oi: RawField,
    volume: RawField,
    quotes: Option<Quotes>,
    greeks: Option<Greeks>)

  /** One option instrument; every numeric field is `None` (null) or a non-zero number. */
  datatype Record = Record(
    symbol: string,
    asset: string,
    optionType: OptionType,
    strike: real,
    expiryDate: string,
    expiryMs: Option<int>,
    expiryRaw: string,
    markPrice: Option<real>,
    spotPrice: Option<real>,
    bidPrice: Option<real>,
    askPrice: Option<real>,
    bidIv: Option<real>,
    askIv: Option<real>,
    openInterest: Option<real>,
    volume: Option<real>,
    delta: Option<real>,
    gamma: Option<real>,
    theta: Option<real>,
    vega: Option<real>)

  /** The sort key `a.strike - b.strike` compares. */
  function StrikeOf(r: Record): real {
    r.strike
  }

  /** `parseFloat(x)`: a number reads as itself, a string is parsed, absent is NaN. */
  function ParseField(f: RawField): (r: Option<real>)
    ensures f.Absent? ==> r.None?
    ensures f.Num? ==> r == Some(f.number)
    ensures f.Str? ==> (r.Some? <==> StartsDecimal(Unsigned(TrimStart(f.text))))
  {
    match f
    case Absent => None
    case Str(s) => ParseFloat(s)
    case Num(x) => Some(x)
  }

  /** `parseFloat(x) || null`: NaN and zero are both falsy, so both become null. */
  function Coerce(f: RawField): (r: Option<real>)
    ensures r.Some? <==> ParseField(f).Some? && ParseField(f).value != 0.0
    ensures r.Some? ==> r == ParseField(f)
  {
    match ParseField(f)
    case None => None
    case Some(x) => if x == 0.0 then None else Some(x)
  }

  /** The value is null or a non-zero number. */
  predicate Coerced(v: Option<real>) {
    v.None? || v.value != 0.0
  }

  predicate NumbersCoerced(r: Record) {
    && Coerced(r.markPrice) && Coerced(r.spotPrice) && Coerced(r.bidPrice) && Coerced(r.askPrice)
    && Coerced(r.bidIv) && Coerced(r.askIv) && Coerced(r.openInterest) && Coerced(r.volume)
    && Coerced(r.delta) && Coerced(r.gamma) && Coerced(r.theta) && Coerced(r.vega)
  }

  /** A missing `quotes` or `greeks` object behaves as `{}`: all its fields are absent. */
  function QuotesOrEmpty(q: Option<Quotes>): Quotes {
    q.GetOr(Quotes(Absent, Absent, Absent, Absent))
  }

  function GreeksOrEmpty(g: Option<Greeks>): Greeks {
    g.GetOr(Greeks(Absent, Absent, Absent, Absent))
  }

  function NormalizeTicker(t: RawTicker): (r: Option<Record>)
    ensures r.Some? <==> ParseOptionSymbol(t.symbol).Some?
    ensures r.Some? ==>
              var p := ParseOptionSymbol(t.symbol).value;
              && r.value.symbol == t.symbol.value
              && r.value.asset == p.asset && r.value.optionType == p.optionType
              && r.value.strike == p.strike && r.value.expiryDate == p.expiryDate
              && r.value.expiryMs == p.expiryMs && r.value.expiryRaw == p.expiryRaw
    ensures r.Some? ==>
              && r.value.markPrice == Coerce(t.markPrice) && r.value.spotPrice == Coerce(t.spotPrice)
              && r.value.openInterest == Coerce(t.oi) && r.value.volume == Coerce(t.volume)
    ensures r.Some? ==>
              var q := QuotesOrEmpty(t.quotes);
              && r.value.bidPrice == Coerce(q.bestBid) && r.value.askPrice == Coerce(q.bestAsk)
              && r.value.bidIv == Coerce(q.bidIv) && r.value.askIv == Coerce(q.askIv)
    ensures r.Some? ==>
              var g := GreeksOrEmpty(t.greeks);
              && r.value.delta == Coerce(g.delta) && r.value.gamma == Coerce(g.gamma)
              && r.value.theta == Coerce(g.theta) && r.value.vega == Coerce(g.vega)
    ensures r.Some? ==> NumbersCoerced(r.value)
    ensures r.Some? && t.quotes.None? ==>
              r.value.bidPrice.None? && r.value.askPrice.None? && r.value.bidIv.None? && r.value.askIv.None?
    ensures r.Some? && t.greeks.None? ==>
              r.value.delta.None? && r.value.gamma.None? && r.value.theta.None? && r.value.vega.None?
  {
    match ParseOptionSymbol(t.symbol)
    case None => None
    case Some(sym) =>
      var quotes := QuotesOrEmpty(t.quotes);
      var greeks := GreeksOrEmpty(t.greeks);
      Some(Record(
        t.symbol.value,
        sym.asset,
        sym.optionType,
        sym.strike,
        sym.expiryDate,
        sym.expiryMs,
        sym.expiryRaw,
        Coerce(t.markPrice),
        Coerce(t.spotPrice),
        Coerce(quotes.bestBid),
        Coerce(quotes.bestAsk),
        Coerce(quotes.bidIv),
        Coerce(quotes.askIv),
        Coerce(t.oi),
        Coerce(t.volume),
        Coerce(greeks.delta),
        Coerce(greeks.gamma),
        Coerce(greeks.theta),
        Coerce(greeks.vega)))
  }

  /** The threshold when the caller passes none: `minOpenInterest = 0`. */
  const DefaultMinOpenInterest := 0.0

  /** `r.open_interest ?? 0`. */
  function OiOrZero(r: Record): real {
    r.openInterest.GetOr(0.0)
  }

  /** The record survives the open-interest filter: `(open_interest ?? 0) < min` drops it. */
  predicate MeetsThreshold(r: Record, minOpenInterest: real) {
    !(OiOrZero(r) < minOpenInterest)
  }

  /** The tickers that normalise, in input order. */
  function Normalized(ts: seq<RawTicker>): seq<Record> {
    if ts == [] then []
    else
      var last := NormalizeTicker(ts[|ts| - 1]);
      Normalized(ts[..|ts| - 1]) + (if last.Some? then [last.value] else [])
  }

  /** What `normalizeOptionChain` returns, one ticker at a time. */
  function NormalizedChain(ts: seq<RawTicker>, minOpenInterest: real): (r: seq<Record>)
    ensures |r| <= |ts|
    ensures forall i :: 0 <= i < |r| ==> OiOrZero(r[i]) >= minOpenInterest && NumbersCoerced(r[i])
  {
    if ts == [] then []
    else
      var last := NormalizeTicker(ts[|ts| - 1]);
      NormalizedChain(ts[..|ts| - 1], minOpenInterest)
      + (if last.Some? && MeetsThreshold(last.value, minOpenInterest) then [last.value] else [])
  }

  method NormalizeOptionChain(tickers: seq<RawTicker>, minOpenInterest: real) returns (records: seq<Record>)
    ensures records == NormalizedChain(tickers, minOpenInterest)
  {
    records := [];
    for i := 0 to |tickers|
      invariant records == NormalizedChain(tickers[..i], minOpenInterest)
    {
      assert tickers[..i + 1][..i] == tickers[..i];
      var r := NormalizeTicker(tickers[i]);
      if r.None? {
        continue;
      }
      if OiOrZero(r.value) < minOpenInterest {
        continue;
      }
      records := records + [r.value];
    }
    assert tickers[..|tickers|] == tickers;
  }

  /**
   * The chain is exactly the normalised tickers that meet the threshold:
   * input order is kept and duplicates are not merged.
   */
  lemma {:induction false} ChainIsFilter(ts: seq<RawTicker>, minOpenInterest: real)
    ensures NormalizedChain(ts, minOpenInterest)
            == Filter(Normalized(ts), r => MeetsThreshold(r, minOpenInterest))
  {
    if ts != [] {
      var front := ts[..|ts| - 1];
      ChainIsFilter(front, minOpenInterest);
      var n := Normalized(front);
      var last := NormalizeTicker(ts[|ts| - 1]);
      if last.Some? {
        assert (n + [last.value])[..|n|] == n;
      } else {
        assert Normalized(ts) == n;
      }
    }
  }

  /** The chain is an order-preserving subsequence of the normalised tickers. */
  lemma ChainIsSubsequence(ts: seq<RawTicker>, minOpenInterest: real)
    ensures IsSubsequence(NormalizedChain(ts, minOpenInterest), Normalized(ts))
  {
    ChainIsFilter(ts, minOpenInterest);
    FilterIsSubsequence(Normalized(ts), r => MeetsThreshold(r, minOpenInterest));
  }

  /**
   * No deduplication: a record that meets the threshold appears in the
   * chain as many times as it comes out of normalisation.
   */
  lemma ChainMultiplicity(ts: seq<RawTicker>, minOpenInterest: real, x: Record)
    ensures multiset(NormalizedChain(ts, minOpenInterest))[x]
            == if OiOrZero(x) >= minOpenInterest then multiset(Normalized(ts))[x] else 0
  {
    ChainIsFilter(ts, minOpenInterest);
    FilterCount(Normalized(ts), r => MeetsThreshold(r, minOpenInterest), x);
  }

  /**
   * Under the default threshold only a negative open interest drops a
   * record: every record with null or non-negative open interest is kept,
   * as often as it comes out of normalisation.
   */
  lemma DefaultThresholdKeeps(ts: seq<RawTicker>, x: Record)
    requires x.openInterest.None? || x.openInterest.value >= 0.0
    ensures multiset(NormalizedChain(ts, DefaultMinOpenInterest))[x] == multiset(Normalized(ts))[x]
  {
    ChainMultiplicity(ts, DefaultMinOpenInterest, x);
  }

  /** The boundary is inclusive: open interest equal to the threshold is kept. */
  lemma ThresholdInclusive(t: RawTicker, minOpenInterest: real)
    requires NormalizeTicker(t).Some? && OiOrZero(NormalizeTicker(t).value) == minOpenInterest
    ensures NormalizedChain([t], minOpenInterest) == [NormalizeTicker(t).value]
  {
    assert [t][..0] == [];
  }

  /** Zero is not kept as a value: `"0"` and `0` both come out as null. */
  lemma CoerceDropsZero()
    ensures Coerce(Str("0")) == None && Coerce(Num(0.0)) == None
  {
    ParseNatString(0);
    assert NatToString(0) == "0";
  }

  /** A positive whole number, as text or as a number, is kept. */
  lemma CoerceKeepsPositive(n: nat)
    requires n > 0
    ensures Coerce(Str(NatToString(n))) == Some(n as real)
    ensures Coerce(Num(n as real)) == Some(n as real)
  {
    ParseNatString(n);
  }
}

=== FILE: numbers.dfy ===
/**
 * JavaScript's `parseFloat` on strings: skip leading white space, then read
 * the longest prefix that is a decimal literal (optional sign, digits, an
 * optional fraction, an optional exponent). `None` stands for NaN, the
 * result when no digit starts the literal.
 */
module Numbers {
  import opened Wrappers

  predicate IsDigit(c: char) { '0' <= c <= '9' }

  predicate AllDigits(s: string) { forall i :: 0 <= i < |s| ==> IsDigit(s[i]) }

  /** The ASCII and Latin-1 white space and line terminators `parseFloat` skips. */
  predicate IsWhiteSpace(c: char) {
    c == ' ' || c == '\t' || c == '\n' || c == '\r' || c == '\U{000B}' || c == '\U{000C}'
    || c == '\U{00A0}' || c == '\U{2028}' || c == '\U{2029}' || c == '\U{FEFF}'
  }

  function TrimStart(s: string): (t: string)
    ensures |t| <= |s| && t == s[|s| - |t|..]
    ensures t == [] || !IsWhiteSpace(t[0])
  {
    if s != [] && IsWhiteSpace(s[0]) then
      var t := TrimStart(s[1..]);
      assert s[1..][|s| - 1 - |t|..] == s[|s| - |t|..];
      t
    else s
  }

  /** Length of the longest prefix of `s` made of decimal digits. */
  function DigitRun(s: string): (n: nat)
    ensures n <= |s| && AllDigits(s[..n])
    ensures n < |s| ==> !IsDigit(s[n])
  {
    if s == [] || !IsDigit(s[0]) then 0
    else
      var k := DigitRun(s[1..]);
      assert s[..1 + k] == [s[0]] + s[1..][..k];
      1 + k
  }

  function DigitValue(c: char): (d: nat)
    requires IsDigit(c)
    ensures d < 10
  {
    c as int - '0' as int
  }

  function DigitChar(d: nat): (c: char)
    requires d < 10
    ensures IsDigit(c) && DigitValue(c) == d
  {
    ('0' as int + d) as char
  }

  /** The number a string of decimal digits denotes (most significant first). */
  function DigitsValue(s: string): nat
    requires AllDigits(s)
  {
    if s == [] then 0 else 10 * DigitsValue(s[..|s| - 1]) + DigitValue(s[|s| - 1])
  }

  lemma TwoDigits(s: string)
    requires |s| == 2 && AllDigits(s)
    ensures DigitsValue(s) == 10 * DigitValue(s[0]) + DigitValue(s[1])
  {
    var h := s[..1];
    assert h[..0] == [] && h[0] == s[0];
    assert DigitsValue(h) == DigitValue(s[0]);
  }

  lemma {:induction false} DigitsBound(s: string)
    requires AllDigits(s)
    ensures DigitsValue(s) < Pow10(|s|)
  {
    if s != [] {
      DigitsBound(s[..|s| - 1]);
    }
  }

  function Pow10(n: nat): (p: nat)
    ensures p >= 1
  {
    if n == 0 then 1 else 10 * Pow10(n - 1)
  }

  /** The value of an exponent part `e[+|-]digits`, or 0 when `s` does not start with one. */
  function Exponent(s: string): int {
    if |s| >= 2 && (s[0] == 'e' || s[0] == 'E') then
      var ds := if s[1] == '+' || s[1] == '-' then s[2..] else s[1..];
      var k := DigitRun(ds);
      if k == 0 then 0
      else if s[1] == '-' then -(DigitsValue(ds[..k]) as int)
      else DigitsValue(ds[..k])
    else 0
  }

  /** `s` without one leading sign character, if it has one. */
  function Unsigned(s: string): (u: string)
    ensures |u| <= |s|
  {
    if s != [] && (s[0] == '-' || s[0] == '+') then s[1..] else s
  }

  /** A digit, or a '.' followed by a digit. */
  predicate StartsDecimal(u: string) {
    (u != [] && IsDigit(u[0])) || (|u| >= 2 && u[0] == '.' && IsDigit(u[1]))
  }

  /** The longest unsigned decimal literal at the start of `u`, if any. */
  function ParseUnsigned(u: string): (r: Option<real>)
    ensures r.Some? <==> StartsDecimal(u)
    ensures r.Some? ==> r.value >= 0.0
  {
    var n := DigitRun(u);
    var rest := u[n..];
    var dotted := rest != [] && rest[0] == '.';
    var fraction := if dotted then rest[1..][..DigitRun(rest[1..])] else [];
    var tail := if dotted then rest[1 + |fraction|..] else rest;
    if n == 0 && fraction == [] then None
    else
      var mantissa := DigitsValue(u[..n]) as real + Fraction(fraction);
      Some(Scale(mantissa, Exponent(tail)))
  }

  /** The value of the digits after a decimal point: `0.ds`. */
  function Fraction(ds: string): (f: real)
    requires AllDigits(ds)
    ensures 0.0 <= f < 1.0
  {
    if ds == [] then 0.0 else (DigitValue(ds[0]) as real + Fraction(ds[1..])) / 10.0
  }

  /** `m` times ten to the power `e`, one power of ten at a time. */
  function Scale(m: real, e: int): (r: real)
    ensures m >= 0.0 ==> r >= 0.0
    decreases if e >= 0 then e else -e
  {
    if e == 0 then m
    else if e > 0 then 10.0 * Scale(m, e - 1)
    else Scale(m, e + 1) / 10.0
  }

  function ParseFloat(s: string): (r: Option<real>)
    ensures r.Some? <==> StartsDecimal(Unsigned(TrimStart(s)))
  {
    var t := TrimStart(s);
    match ParseUnsigned(Unsigned(t))
    case None => None
    case Some(m) => Some(if t != [] && t[0] == '-' then -m else m)
  }

  /** Decimal representation of a natural number, without leading zeros. */
  function NatToString(n: nat): (s: string)
    ensures s != [] && AllDigits(s)
    ensures IsDigit(s[0])
  {
    if n < 10 then [DigitChar(n)] else NatToString(n / 10) + [DigitChar(n % 10)]
  }

  lemma {:induction false} NatToStringValue(n: nat)
    ensures DigitsValue(NatToString(n)) == n
  {
    if n >= 10 {
      var s := NatToString(n);
      assert s[..|s| - 1] == NatToString(n / 10);
      NatToStringValue(n / 10);
    }
  }

  lemma {:induction false} DigitRunAll(s: string)
    requires AllDigits(s)
    ensures DigitRun(s) == |s|
  {
    if s != [] {
      DigitRunAll(s[1..]);
    }
  }

  /** `parseFloat` reads back the decimal representation of every natural number. */
  lemma ParseDigits(s: string)
    requires s != [] && AllDigits(s)
    ensures ParseUnsigned(s) == Some(DigitsValue(s) as real)
  {
    DigitRunAll(s);
    assert s[..|s|] == s;
    assert s[|s|..] == [];
  }

  /** `parseFloat` reads back the decimal representation of every natural number. */
  lemma ParseNatString(n: nat)
    ensures ParseFloat(NatToString(n)) == Some(n as real)
  {
    var s := NatToString(n);
    assert TrimStart(s) == s;
    assert Unsigned(s) == s;
    ParseDigits(s);
    NatToStringValue(n);
  }

  /** A string that does not start with white space, a sign, a digit or '.' is NaN. */
  lemma ParseNonNumeric(s: string)
    requires s != [] && !IsWhiteSpace(s[0]) && !IsDigit(s[0])
    requires s[0] != '-' && s[0] != '+' && s[0] != '.'
    ensures ParseFloat(s) == None
  {
  }
}

=== FILE: option_symbol.dfy ===
/**
 * Decoding of an exchange option symbol `{C|P}-{ASSET}-{STRIKE}-{DDMMYY}`,
 * as `parseOptionSymbol` in src/utils/dataUtils.js does it.
 */
module OptionSymbol {
  import opened Wrappers
  import opened Numbers
  import opened Text
  import opened Calendar

  datatype OptionType = Call | Put

  datatype ParsedSymbol = ParsedSymbol(
    optionType: OptionType,
    asset: string,
    strike: real,
    expiryDate: string,       // "YYYY-MM-DD"
    expiryMs: Option<int>,    // None stands for NaN (an invalid date)
    expiryRaw: string)

  /** Options settle at 08:00 UTC on their expiry day. */
  const SettlementHour := 8

  /** The letter that opens a symbol of the given type. */
  function TypeLetter(t: OptionType): string {
    if t == Call then "C" else "P"
  }

  /** The ISO date text `20YY-MM-DD` built from the day, month and year fields. */
  function IsoDate(dd: string, mm: string, yy: string): (s: string)
    ensures |dd| == 2 && |mm| == 2 && |yy| == 2 ==>
              && |s| == 10 && s[..2] == "20" && s[4] == '-' && s[7] == '-'
              && s[2..4] == yy && s[5..7] == mm && s[8..] == dd
  {
    "20" + yy + "-" + mm + "-" + dd
  }

  /**
   * `new Date("20YY-MM-DDT08:00:00Z").getTime()` as the V8 and SpiderMonkey
   * date parsers read it: the ISO form needs digits in every field, a month
   * from 1 to 12 and a day from 1 to 31; a day past the end of a shorter
   * month runs on into the next month.
   */
  function SettlementTime(dd: string, mm: string, yy: string): (t: Option<int>)
    requires |dd| == 2 && |mm| == 2 && |yy| == 2
    ensures t.Some? <==> && AllDigits(dd) && AllDigits(mm) && AllDigits(yy)
                         && 1 <= DigitsValue(mm) <= 12 && 1 <= DigitsValue(dd) <= 31
    ensures t.Some? ==> && AllDigits(dd) && AllDigits(mm) && AllDigits(yy) && 1 <= DigitsValue(mm) <= 12
                        && t.value / MsPerDay == DayNumber(2000 + DigitsValue(yy), DigitsValue(mm), DigitsValue(dd))
                        && t.value % MsPerDay == SettlementHour * MsPerHour
  {
    if AllDigits(dd) && AllDigits(mm) && AllDigits(yy) then
      var d, m, y := DigitsValue(dd), DigitsValue(mm), 2000 + DigitsValue(yy);
      if 1 <= m <= 12 && 1 <= d <= 31 then Some(TimeValue(y, m, d, SettlementHour)) else None
    else None
  }

  /** The record for a symbol whose pieces were accepted. */
  function Decoded(t: OptionType, asset: string, strike: real, e: string): (p: ParsedSymbol)
    requires |e| >= 6
    ensures |p.expiryDate| == 10
  {
    ParsedSymbol(t, asset, strike, IsoDate(e[0..2], e[2..4], e[4..6]),
                 SettlementTime(e[0..2], e[2..4], e[4..6]), e)
  }

  /** The checks made on the pieces of a symbol split at its hyphens. */
  function ParseParts(parts: seq<string>): (r: Option<ParsedSymbol>)
    requires |parts| >= 4
    ensures r.Some? <==> (parts[0] == "C" || parts[0] == "P") && ParseFloat(parts[2]).Some? && |parts[3]| >= 6
    ensures r.Some? ==> r.value == Decoded(if parts[0] == "C" then Call else Put, parts[1],
                                           ParseFloat(parts[2]).value, parts[3])
  {
    if parts[0] != "C" && parts[0] != "P" then None
    else
      match ParseFloat(parts[2])
      case None => None
      case Some(strike) =>
        if |parts[3]| < 6 then None
        else Some(Decoded(if parts[0] == "C" then Call else Put, parts[1], strike, parts[3]))
  }

  function ParseOptionSymbol(symbol: Option<string>): (r: Option<ParsedSymbol>)
    ensures r.Some? ==> symbol.Some? && Count(symbol.value, '-') >= 3
    ensures r.Some? ==> '-' !in r.value.asset && '-' !in r.value.expiryRaw
    ensures r.Some? ==> |r.value.expiryRaw| >= 6 && |r.value.expiryDate| == 10
  {
    if symbol.None? || symbol.value == [] then None
    else
      var parts := Split(symbol.value, '-');
      if |parts| < 4 then None else ParseParts(parts)
  }

  /** The five ways a symbol is rejected, stated on the symbol text. */
  lemma ParseRejects(symbol: Option<string>)
    ensures symbol.None? || symbol == Some("") ==> ParseOptionSymbol(symbol).None?
    ensures symbol.Some? && Count(symbol.value, '-') < 3 ==> ParseOptionSymbol(symbol).None?
    ensures symbol.Some? && Count(symbol.value, '-') >= 3 ==>
              var parts := Split(symbol.value, '-');
              (parts[0] != "C" && parts[0] != "P") || ParseFloat(parts[2]).None? || |parts[3]| < 6
              ==> ParseOptionSymbol(symbol).None?
  {
  }

  /** The symbol text assembled from its pieces. */
  function Compose(t: OptionType, asset: string, strikeText: string, expiry: string, extra: seq<string>): (s: string)
    ensures s != []
  {
    var parts := [TypeLetter(t), asset, strikeText, expiry] + extra;
    JoinNonEmpty(parts);
    Join(parts, '-')
  }

  /**
   * Round trip: a symbol assembled from a type letter, an asset, a strike
   * text, an expiry field and any further pieces parses back to those
   * fields; pieces after the fourth are ignored.
   */
  lemma ParseComposed(t: OptionType, asset: string, strikeText: string, expiry: string, extra: seq<string>)
    requires '-' !in asset && '-' !in strikeText && '-' !in expiry
    requires forall i :: 0 <= i < |extra| ==> '-' !in extra[i]
    requires ParseFloat(strikeText).Some? && |expiry| >= 6
    ensures ParseOptionSymbol(Some(Compose(t, asset, strikeText, expiry, extra)))
            == Some(Decoded(t, asset, ParseFloat(strikeText).value, expiry))
  {
    var parts := [TypeLetter(t), asset, strikeText, expiry] + extra;
    PiecesWithoutHyphen(t, asset, strikeText, expiry, extra);
    SplitJoin(parts, '-');
    assert Split(Compose(t, asset, strikeText, expiry, extra), '-') == parts;
    PartsAccepted(t, asset, strikeText, expiry, extra);
  }

  /** The type letter is read back as the type it was written for. */
  lemma LetterRoundTrip(t: OptionType)
    ensures TypeLetter(t) == "C" || TypeLetter(t) == "P"
    ensures (if TypeLetter(t) == "C" then Call else Put) == t
  {
    assert "P"[0] != "C"[0];
  }

  lemma PartsAccepted(t: OptionType, asset: string, strikeText: string, expiry: string, extra: seq<string>)
    requires ParseFloat(strikeText).Some? && |expiry| >= 6
    ensures ParseParts([TypeLetter(t), asset, strikeText, expiry] + extra)
            == Some(Decoded(t, asset, ParseFloat(strikeText).value, expiry))
  {
    var parts := [TypeLetter(t), asset, strikeText, expiry] + extra;
    assert parts[0] == TypeLetter(t) && parts[1] == asset && parts[2] == strikeText && parts[3] == expiry;
    LetterRoundTrip(t);
  }

  /** An accepted type letter is written back unchanged. */
  lemma LetterRead(letter: string)
    requires letter == "C" || letter == "P"
    ensures TypeLetter(if letter == "C" then Call else Put) == letter
  {
  }

  lemma PiecesWithoutHyphen(t: OptionType, asset: string, strikeText: string, expiry: string, extra: seq<string>)
    requires '-' !in asset && '-' !in strikeText && '-' !in expiry
    requires forall i :: 0 <= i < |extra| ==> '-' !in extra[i]
    ensures var parts := [TypeLetter(t), asset, strikeText, expiry] + extra;
            forall i :: 0 <= i < |parts| ==> '-' !in parts[i]
  {
    var parts := [TypeLetter(t), asset, strikeText, expiry] + extra;
    forall i | 0 <= i < |parts| ensures '-' !in parts[i] {
      if i >= 4 {
        assert parts[i] == extra[i - 4];
      }
    }
  }

  lemma JoinNonEmpty(parts: seq<string>)
    requires |parts| >= 2
    ensures Join(parts, '-') != []
  {
    assert Join(parts, '-') == parts[0] + "-" + Join(parts[1..], '-');
  }

  /** Every accepted symbol is such an assembly of the fields it was parsed into. */
  lemma ParsedShape(s: string) returns (strikeText: string, extra: seq<string>)
    requires ParseOptionSymbol(Some(s)).Some?
    ensures var p := ParseOptionSymbol(Some(s)).value;
            && ParseFloat(strikeText) == Some(p.strike)
            && s == Compose(p.optionType, p.asset, strikeText, p.expiryRaw, extra)
  {
    var parts := Split(s, '-');
    var p := ParseOptionSymbol(Some(s)).value;
    assert |parts| >= 4 && p == ParseParts(parts).value;
    LetterRead(parts[0]);
    JoinSplit(s, '-');
    assert [TypeLetter(p.optionType), p.asset, parts[2], p.expiryRaw] + parts[4..] == parts;
    strikeText, extra := parts[2], parts[4..];
  }

  /** The expiry field `DDMMYY` names a real calendar day. */
  predicate ValidExpiry(e: string) {
    && |e| >= 6 && AllDigits(e[0..2]) && AllDigits(e[2..4]) && AllDigits(e[4..6])
    && ValidDate(2000 + DigitsValue(e[4..6]), DigitsValue(e[2..4]), DigitsValue(e[0..2]))
  }

  /**
   * On real calendar days the settlement time orders expiries exactly as the
   * calendar does, so the smallest `expiry_ms` is the soonest expiry.
   */
  lemma ExpiryOrder(e1: string, e2: string)
    requires ValidExpiry(e1) && ValidExpiry(e2)
    ensures var t1 := SettlementTime(e1[0..2], e1[2..4], e1[4..6]);
            var t2 := SettlementTime(e2[0..2], e2[2..4], e2[4..6]);
            && t1.Some? && t2.Some?
            && (t1.value < t2.value <==>
                DateBefore(DigitsValue(e1[4..6]), DigitsValue(e1[2..4]), DigitsValue(e1[0..2]),
                           DigitsValue(e2[4..6]), DigitsValue(e2[2..4]), DigitsValue(e2[0..2])))
  {
    var y1, m1, d1 := 2000 + DigitsValue(e1[4..6]), DigitsValue(e1[2..4]), DigitsValue(e1[0..2]);
    var y2, m2, d2 := 2000 + DigitsValue(e2[4..6]), DigitsValue(e2[2..4]), DigitsValue(e2[0..2]);
    DayNumberOrder(y1, m1, d1, y2, m2, d2);
  }

  /**
   * The two-digit year is read as 20YY, so no parsed expiry reaches the
   * year 2100.
   */
  lemma SettlementBefore2100(dd: string, mm: string, yy: string)
    requires |dd| == 2 && |mm| == 2 && |yy| == 2
    requires SettlementTime(dd, mm, yy).Some?
    ensures SettlementTime(dd, mm, yy).value < DaysBeforeYear(2100) * MsPerDay
  {
    DigitsBound(yy);
    var y := 2000 + DigitsValue(yy);
    assert y <= 2099;
    if y < 2099 {
      YearsAscend(y, 2100);
    } else {
      YearLength(2099);
    }
  }

  /** Under those parsers a day past the month's end runs on: 30 February 2025 is 2 March 2025. */
  lemma DayRollsOver()
    ensures SettlementTime("30", "02", "25") == SettlementTime("02", "03", "25")
  {
    TwoDigits("30");
    TwoDigits("02");
    TwoDigits("03");
    TwoDigits("25");
    assert !IsLeap(2025);
    assert DayNumber(2025, 2, 30) == DayNumber(2025, 3, 2);
    assert SettlementTime("30", "02", "25") == Some(TimeValue(2025, 2, 30, SettlementHour));
    assert SettlementTime("02", "03", "25") == Some(TimeValue(2025, 3, 2, SettlementHour));
  }

  /** The strike of the example `C-BTC-95200-200225` in src/utils/dataUtils.js. */
  lemma ExampleStrike()
    ensures ParseFloat("95200") == Some(95200.0)
  {
    assert NatToString(95200) == "95200";
    ParseNatString(95200);
  }

  /** The expiry of that example: 20 February 2025, 08:00 UTC. */
  lemma ExampleTime()
    ensures SettlementTime("20", "02", "25") == Some(1_740_038_400_000)
  {
    TwoDigits("20");
    TwoDigits("02");
    TwoDigits("25");
    assert DaysBeforeYear(2025) == 20089;
  }
}

=== FILE: seqs.dfy ===
/**
 * Sequences ordered by a numeric key. `SortBy` is the model of
 * `Array.prototype.sort` with a comparator `(a, b) => key(a) - key(b)`:
 * the ECMAScript standard (since 2019) requires that sort to be stable,
 * and `StableSortUnique` shows that any two stable sorts of the same
 * input agree, so the insertion sort used here stands for any of them.
 */
module Seqs {

  ghost predicate SortedBy<T>(s: seq<T>, key: T -> real) {
    forall i, j :: 0 <= i < j < |s| ==> key(s[i]) <= key(s[j])
  }

  /** The elements of `s` whose key is `k`, in their order in `s`. */
  function WithKey<T>(s: seq<T>, key: T -> real, k: real): (r: seq<T>)
    ensures |r| <= |s|
    ensures forall i :: 0 <= i < |r| ==> key(r[i]) == k
  {
    if s == [] then []
    else (if key(s[0]) == k then [s[0]] else []) + WithKey(s[1..], key, k)
  }

  /** `WithKey` keeps exactly the elements whose key is `k`. */
  lemma {:induction false} WithKeyMember<T>(s: seq<T>, key: T -> real, k: real, x: T)
    ensures x in WithKey(s, key, k) <==> x in s && key(x) == k
  {
    if s != [] {
      WithKeyMember(s[1..], key, k, x);
      assert s == [s[0]] + s[1..];
    }
  }

  /** `r` is what a stable sort of `s` by ascending key produces. */
  ghost predicate StableSortOf<T>(r: seq<T>, s: seq<T>, key: T -> real) {
    && SortedBy(r, key)
    && multiset(r) == multiset(s)
    && forall k :: WithKey(r, key, k) == WithKey(s, key, k)
  }

  /** Inserts `x` in front of the first element whose key is not smaller. */
  function Insert<T>(x: T, s: seq<T>, key: T -> real): (r: seq<T>)
    requires SortedBy(s, key)
    ensures SortedBy(r, key)
    ensures multiset(r) == multiset(s) + multiset{x}
    ensures |r| == |s| + 1
  {
    if s == [] || key(x) <= key(s[0]) then [x] + s
    else
      var rest := Insert(x, s[1..], key);
      InsertStep(s, x, rest, key);
      [s[0]] + rest
  }

  /**
   * Putting the head of `s` back in front of `x` inserted into its tail
   * keeps the result sorted and accounts for every element.
   */
  lemma InsertStep<T>(s: seq<T>, x: T, rest: seq<T>, key: T -> real)
    requires s != [] && SortedBy(s, key) && key(s[0]) <= key(x)
    requires SortedBy(rest, key)
    requires multiset(rest) == multiset(s[1..]) + multiset{x}
    ensures SortedBy([s[0]] + rest, key)
    ensures multiset([s[0]] + rest) == multiset(s) + multiset{x}
  {
    assert s == [s[0]] + s[1..];
    forall j | 0 <= j < |rest| ensures key(s[0]) <= key(rest[j]) {
      assert rest[j] in multiset(rest);
      if rest[j] != x {
        assert rest[j] in multiset(s[1..]);
        var i :| 0 <= i < |s[1..]| && s[1..][i] == rest[j];
        assert s[i + 1] == rest[j];
      }
    }
    var r := [s[0]] + rest;
    forall i, j | 0 <= i < j < |r| ensures key(r[i]) <= key(r[j]) {
      if i > 0 {
        assert r[i] == rest[i - 1] && r[j] == rest[j - 1];
      } else {
        assert r[j] == rest[j - 1];
      }
    }
  }

  function SortBy<T>(s: seq<T>, key: T -> real): (r: seq<T>)
    ensures SortedBy(r, key)
    ensures multiset(r) == multiset(s)
    ensures |r| == |s|
  {
    if s == [] then []
    else
      assert s == [s[0]] + s[1..];
      Insert(s[0], SortBy(s[1..], key), key)
  }

  lemma {:induction false} WithKeyAppend<T>(a: seq<T>, b: seq<T>, key: T -> real, k: real)
    ensures WithKey(a + b, key, k) == WithKey(a, key, k) + WithKey(b, key, k)
  {
    if a != [] {
      assert (a + b)[0] == a[0];
      assert (a + b)[1..] == a[1..] + b;
      WithKeyAppend(a[1..], b, key, k);
    } else {
      assert a + b == b;
    }
  }

  lemma {:induction false} InsertWithKey<T>(x: T, s: seq<T>, key: T -> real, k: real)
    requires SortedBy(s, key)
    ensures WithKey(Insert(x, s, key), key, k)
            == (if key(x) == k then [x] else []) + WithKey(s, key, k)
  {
    if s == [] || key(x) <= key(s[0]) {
      WithKeyCons(x, s, key, k);
    } else {
      var rest := Insert(x, s[1..], key);
      WithKeyCons(s[0], rest, key, k);
      InsertWithKey(x, s[1..], key, k);
      WithKeyCons(s[0], s[1..], key, k);
      assert s == [s[0]] + s[1..];
    }
  }

  lemma WithKeyCons<T>(h: T, s: seq<T>, key: T -> real, k: real)
    ensures WithKey([h] + s, key, k) == (if key(h) == k then [h] else []) + WithKey(s, key, k)
  {
    assert ([h] + s)[1..] == s;
  }

  /** Sorting keeps elements of equal key in their input order. */
  lemma {:induction false} SortByStable<T>(s: seq<T>, key: T -> real, k: real)
    ensures WithKey(SortBy(s, key), key, k) == WithKey(s, key, k)
  {
    if s != [] {
      SortByStable(s[1..], key, k);
      InsertWithKey(s[0], SortBy(s[1..], key), key, k);
    }
  }

  lemma SortByIsStableSort<T>(s: seq<T>, key: T -> real)
    ensures StableSortOf(SortBy(s, key), s, key)
  {
    forall k ensures WithKey(SortBy(s, key), key, k) == WithKey(s, key, k) {
      SortByStable(s, key, k);
    }
  }

  /** Taking a prefix keeps, for every key, a prefix of the elements with that key. */
  lemma PrefixWithKey<T>(s: seq<T>, n: nat, key: T -> real, k: real)
    requires n <= |s|
    ensures WithKey(s[..n], key, k) <= WithKey(s, key, k)
  {
    assert s == s[..n] + s[n..];
    WithKeyAppend(s[..n], s[n..], key, k);
  }

  /** Stable sorting is deterministic: two stable sorts of one input are equal. */
  lemma StableSortUnique<T>(r1: seq<T>, r2: seq<T>, s: seq<T>, key: T -> real)
    requires StableSortOf(r1, s, key) && StableSortOf(r2, s, key)
    ensures r1 == r2
  {
    forall k ensures WithKey(r1, key, k) == WithKey(r2, key, k) {
      assert WithKey(r1, key, k) == WithKey(s, key, k) == WithKey(r2, key, k);
    }
    SortedSameKeysEqual(r1, r2, key);
  }

  lemma SortedSameKeysEqual<T>(r1: seq<T>, r2: seq<T>, key: T -> real)
    requires SortedBy(r1, key) && SortedBy(r2, key)
    requires forall k :: WithKey(r1, key, k) == WithKey(r2, key, k)
    ensures r1 == r2
    decreases |r1|
  {
    if r1 != [] {
      SameHead(r1, r2, key);
      forall k ensures WithKey(r1[1..], key, k) == WithKey(r2[1..], key, k) {
        WithKeyTail(r1, key, k);
        WithKeyTail(r2, key, k);
      }
      SortedTail(r1, key);
      SortedTail(r2, key);
      SortedSameKeysEqual(r1[1..], r2[1..], key);
      assert r1 == [r1[0]] + r1[1..];
      assert r2 == [r2[0]] + r2[1..];
    }
  }

  lemma SortedTail<T>(r: seq<T>, key: T -> real)
    requires r != [] && SortedBy(r, key)
    ensures SortedBy(r[1..], key)
  {
    forall i, j | 0 <= i < j < |r| - 1 ensures key(r[1..][i]) <= key(r[1..][j]) {
      assert r[1..][i] == r[i + 1] && r[1..][j] == r[j + 1];
    }
  }

  lemma WithKeyTail<T>(r: seq<T>, key: T -> real, k: real)
    requires r != []
    ensures WithKey(r[1..], key, k) == WithKey(r, key, k)[(if key(r[0]) == k then 1 else 0)..]
  {
  }

  lemma SameHead<T>(r1: seq<T>, r2: seq<T>, key: T -> real)
    requires r1 != [] && r2 != []
    requires SortedBy(r1, key) && SortedBy(r2, key)
    requires WithKey(r1, key, key(r1[0])) == WithKey(r2, key, key(r1[0]))
    requires WithKey(r1, key, key(r2[0])) == WithKey(r2, key, key(r2[0]))
    ensures r1[0] == r2[0]
  {
    WithKeyMember(r1, key, key(r1[0]), r1[0]);
    WithKeyMember(r2, key, key(r1[0]), r1[0]);
    WithKeyMember(r2, key, key(r2[0]), r2[0]);
    WithKeyMember(r1, key, key(r2[0]), r2[0]);
    var i :| 0 <= i < |r2| && r2[i] == r1[0];
    var j :| 0 <= j < |r1| && r1[j] == r2[0];
    assert key(r2[0]) <= key(r2[i]);
    assert key(r1[0]) <= key(r1[j]);
    var k0 := key(r1[0]);
    assert WithKey(r1, key, k0)[0] == r1[0];
    assert WithKey(r2, key, k0)[0] == r2[0];
  }

  /** The elements of `s` that satisfy `p`, in order (`Array.prototype.filter`). */
  function Filter<T>(s: seq<T>, p: T -> bool): (r: seq<T>)
    ensures |r| <= |s|
    ensures forall i :: 0 <= i < |r| ==> p(r[i])
  {
    if s == [] then []
    else
      var front, last := s[..|s| - 1], s[|s| - 1];
      assert s == front + [last];
      Filter(front, p) + (if p(last) then [last] else [])
  }

  /** `a` is `b` with some elements left out, the rest kept in order. */
  predicate IsSubsequence<T(==)>(a: seq<T>, b: seq<T>)
    decreases |b|
  {
    if a == [] then true
    else if b == [] then false
    else
      (a[|a| - 1] == b[|b| - 1] && IsSubsequence(a[..|a| - 1], b[..|b| - 1]))
      || IsSubsequence(a, b[..|b| - 1])
  }

  lemma {:induction false} FilterIsSubsequence<T>(s: seq<T>, p: T -> bool)
    ensures IsSubsequence(Filter(s, p), s)
  {
    if s != [] {
      var front, last := s[..|s| - 1], s[|s| - 1];
      FilterIsSubsequence(front, p);
      var f := Filter(front, p);
      if p(last) {
        assert (f + [last])[..|f|] == f;
      } else {
        assert Filter(s, p) == f;
        SubsequenceExtend(f, front, last);
        assert front + [last] == s;
      }
    }
  }

  /** Appending to the longer sequence keeps a subsequence. */
  lemma SubsequenceExtend<T>(a: seq<T>, b: seq<T>, x: T)
    requires IsSubsequence(a, b)
    ensures IsSubsequence(a, b + [x])
  {
    assert (b + [x])[..|b|] == b;
  }
  /** Distinct elements occur at most once. */
  lemma {:induction false} CountAtMostOne<T>(s: seq<T>)
    requires forall i, j :: 0 <= i < j < |s| ==> s[i] != s[j]
    ensures forall x :: multiset(s)[x] <= 1
  {
    if s != [] {
      var front, last := s[..|s| - 1], s[|s| - 1];
      assert s == front + [last];
      CountAtMostOne(front);
      assert last !in front;
    }
  }

  /** An element found at two positions occurs at least twice. */
  lemma CountTwo<T>(s: seq<T>, i: nat, j: nat)
    requires i < j < |s| && s[i] == s[j]
    ensures multiset(s)[s[i]] >= 2
  {
    assert s == s[..j] + s[j..];
    assert s[i] in multiset(s[..j]);
    assert s[j..][0] == s[j];
    assert s[j] in multiset(s[j..]);
  }
  /** A prefix of a sorted sequence is sorted and takes nothing that is not there. */
  lemma TakeSorted<T>(s: seq<T>, n: nat, key: T -> real)
    requires n <= |s| && SortedBy(s, key)
    ensures SortedBy(s[..n], key)
    ensures multiset(s) == multiset(s[..n]) + multiset(s[n..])
  {
    assert s == s[..n] + s[n..];
  }

  /** An element some copy of which a sorted prefix leaves out sorts no earlier than the prefix. */
  lemma LeftOutRanksLower<T>(s: seq<T>, n: nat, key: T -> real, x: T, i: nat)
    requires i < n <= |s| && SortedBy(s, key)
    requires multiset(s[..n])[x] < multiset(s)[x]
    ensures key(s[i]) <= key(x)
  {
    assert s == s[..n] + s[n..];
    assert x in multiset(s[n..]);
    var j :| n <= j < |s| && s[j] == x;
  }

  /** Filtering keeps every occurrence of each element that passes and none of the others. */
  lemma {:induction false} FilterCount<T>(s: seq<T>, p: T -> bool, x: T)
    ensures multiset(Filter(s, p))[x] == if p(x) then multiset(s)[x] else 0
  {
    if s != [] {
      var front := s[..|s| - 1];
      FilterCount(front, p, x);
      assert s == front + [s[|s| - 1]];
    }
  }

  /** Sorting takes its elements from the input. */
  lemma SortByMember<T>(s: seq<T>, key: T -> real, i: nat)
    requires i < |SortBy(s, key)|
    ensures SortBy(s, key)[i] in s
  {
    assert SortBy(s, key)[i] in multiset(SortBy(s, key));
  }
  /** Nothing passes: nothing is kept. */
  lemma {:induction false} FilterNone<T>(s: seq<T>, p: T -> bool)
    requires forall i :: 0 <= i < |s| ==> !p(s[i])
    ensures Filter(s, p) == []
  {
    if s != [] {
      FilterNone(s[..|s| - 1], p);
    }
  }
}

=== FILE: series.dfy ===
/**
 * Chart series builders: `buildStrikeSeriesForExpiry` (one curve per
 * option type over strike) and `buildCandlestickSeries` (positional zip of
 * the candle arrays) in src/utils/dataUtils.js.
 */
module Series {
  import opened Wrappers
  import opened Seqs
  import opened OptionSymbol
  import opened Normalize

  /** The numeric fields of a record a strike chart can plot. */
  datatype Metric =
    | MarkPrice | SpotPrice | BidPrice | AskPrice | BidIv | AskIv
    | OpenInterest | Volume | Delta | Gamma | Theta | Vega

  /** The metric plotted when the caller names none: `metric = 'mark_price'`. */
  const DefaultMetric := MarkPrice

  /** `r[metric]`. */
  function MetricValue(r: Record, m: Metric): (v: Option<real>)
    ensures NumbersCoerced(r) ==> Coerced(v)
  {
    match m
    case MarkPrice => r.markPrice
    case SpotPrice => r.spotPrice
    case BidPrice => r.bidPrice
    case AskPrice => r.askPrice
    case BidIv => r.bidIv
    case AskIv => r.askIv
    case OpenInterest => r.openInterest
    case Volume => r.volume
    case Delta => r.delta
    case Gamma => r.gamma
    case Theta => r.theta
    case Vega => r.vega
  }

  /** A strike-chart point `[strike, value]`. */
  datatype Point = Point(strike: real, value: real)

  datatype StrikeSeries = StrikeSeries(name: string, data: seq<Point>, color: string, markerEnabled: bool)

  const CallName := "CE (Call)"
  const PutName := "PE (Put)"
  const CallColor := "#26a69a"
  const PutColor := "#ef5350"
  /** Markers are drawn only on curves with fewer points than this. */
  const MarkerLimit := 30

  /** A row the curve for type `t` plots: that type, with the metric present (`!= null`). */
  predicate Plottable(r: Record, t: OptionType, m: Metric) {
    r.optionType == t && MetricValue(r, m).Some?
  }

  /** The rows of one curve, by ascending strike (ties in input order). */
  function CurveRows(rows: seq<Record>, t: OptionType, m: Metric): (r: seq<Record>)
    ensures forall i :: 0 <= i < |r| ==> Plottable(r[i], t, m)
  {
    var plotted := Filter(rows, (x: Record) => Plottable(x, t, m));
    var r := SortBy(plotted, StrikeOf);
    assert forall i :: 0 <= i < |r| ==> Plottable(r[i], t, m) by {
      forall i | 0 <= i < |r| ensures Plottable(r[i], t, m) {
        SortByMember(plotted, StrikeOf, i);
      }
    }
    r
  }

  /** A curve holds every occurrence of each plottable row and nothing else. */
  lemma CurveRowsCount(rows: seq<Record>, t: OptionType, m: Metric, x: Record)
    ensures multiset(CurveRows(rows, t, m))[x] == if Plottable(x, t, m) then multiset(rows)[x] else 0
  {
    FilterCount(rows, (x: Record) => Plottable(x, t, m), x);
  }

  /** `rows.map((r) => [r.strike, r[metric]])` for rows whose metric is present. */
  function Points(rs: seq<Record>, m: Metric): (ps: seq<Point>)
    requires forall i :: 0 <= i < |rs| ==> MetricValue(rs[i], m).Some?
    ensures |ps| == |rs|
  {
    if rs == [] then []
    else [Point(rs[0].strike, MetricValue(rs[0], m).value)] + Points(rs[1..], m)
  }

  function Curve(rows: seq<Record>, t: OptionType, m: Metric): seq<Point> {
    Points(CurveRows(rows, t, m), m)
  }

  /** The series object pushed for a type: its name, colour and points, and markers below 30 points. */
  function SeriesFor(t: OptionType, data: seq<Point>): (s: StrikeSeries)
    ensures s.data == data
    ensures s.markerEnabled <==> |data| < MarkerLimit
    ensures t == Call ==> s.name == CallName && s.color == CallColor
    ensures t == Put ==> s.name == PutName && s.color == PutColor
  {
    match t
    case Call => StrikeSeries(CallName, data, CallColor, |data| < MarkerLimit)
    case Put => StrikeSeries(PutName, data, PutColor, |data| < MarkerLimit)
  }

  /** The call series if there are call points, then the put series if there are put points. */
  function Assemble(calls: seq<Point>, puts: seq<Point>): (s: seq<StrikeSeries>)
    ensures |s| <= 2
    ensures forall i :: 0 <= i < |s| ==> s[i].data != []
  {
    (if calls != [] then [SeriesFor(Call, calls)] else [])
    + (if puts != [] then [SeriesFor(Put, puts)] else [])
  }

  /** What `buildStrikeSeriesForExpiry` returns: at most a call and a put series, none of them empty. */
  function StrikeChart(rows: seq<Record>, m: Metric): (s: seq<StrikeSeries>)
    ensures |s| <= 2
    ensures forall i :: 0 <= i < |s| ==> s[i].data != []
  {
    Assemble(Curve(rows, Call, m), Curve(rows, Put, m))
  }

  method BuildStrikeSeriesForExpiry(rows: seq<Record>, metric: Metric) returns (series: seq<StrikeSeries>)
    ensures series == StrikeChart(rows, metric)
  {
    var calls := Curve(rows, Call, metric);
    var puts := Curve(rows, Put, metric);
    series := [];
    if calls != [] {
      series := series + [SeriesFor(Call, calls)];
    }
    assert series == if calls != [] then [SeriesFor(Call, calls)] else [];
    if puts != [] {
      series := series + [SeriesFor(Put, puts)];
    }
    assert series == Assemble(calls, puts);
  }

  /** The points follow the rows: point `i` is row `i`'s strike and metric value. */
  lemma {:induction false} PointsFollowRows(rs: seq<Record>, m: Metric, i: nat)
    requires forall j :: 0 <= j < |rs| ==> MetricValue(rs[j], m).Some?
    requires i < |rs|
    ensures Points(rs, m)[i] == Point(rs[i].strike, MetricValue(rs[i], m).value)
  {
    if i > 0 {
      PointsFollowRows(rs[1..], m, i - 1);
    }
  }

  /**
   * A curve is ascending by strike, and its points are exactly the
   * plottable rows of its type: one point per row, with the row's value.
   */
  lemma CurveShape(rows: seq<Record>, t: OptionType, m: Metric)
    ensures var ps, rs := Curve(rows, t, m), CurveRows(rows, t, m);
            && |ps| == |rs|
            && (forall i, j :: 0 <= i < j < |ps| ==> ps[i].strike <= ps[j].strike)
            && (forall i :: 0 <= i < |ps| ==>
                  Plottable(rs[i], t, m) && ps[i] == Point(rs[i].strike, MetricValue(rs[i], m).value))
  {
    var rs := CurveRows(rows, t, m);
    assert SortedBy(rs, StrikeOf);
    forall i | 0 <= i < |rs|
      ensures Curve(rows, t, m)[i] == Point(rs[i].strike, MetricValue(rs[i], m).value)
    {
      PointsFollowRows(rs, m, i);
    }
  }

  /** Some row of type `t` has the metric present. */
  predicate HasPlottable(rows: seq<Record>, t: OptionType, m: Metric) {
    exists i :: 0 <= i < |rows| && Plottable(rows[i], t, m)
  }

  /** A curve is empty exactly when no row of its type has the metric. */
  lemma CurveEmpty(rows: seq<Record>, t: OptionType, m: Metric)
    ensures Curve(rows, t, m) == [] <==> !HasPlottable(rows, t, m)
  {
    var rs := CurveRows(rows, t, m);
    if rs == [] {
      forall i | 0 <= i < |rows| ensures !Plottable(rows[i], t, m) {
        CurveRowsCount(rows, t, m, rows[i]);
        assert rows[i] in multiset(rows);
      }
    } else {
      CurveRowsCount(rows, t, m, rs[0]);
      assert rs[0] in multiset(rs);
      var i :| 0 <= i < |rows| && rows[i] == rs[0];
    }
  }

  lemma AssembleShape(calls: seq<Point>, puts: seq<Point>)
    ensures var s := Assemble(calls, puts);
            && |s| == (if calls != [] then 1 else 0) + (if puts != [] then 1 else 0)
            && (calls != [] ==> s[0] == SeriesFor(Call, calls))
            && (puts != [] ==> s[|s| - 1] == SeriesFor(Put, puts))
            && (forall i :: 0 <= i < |s| ==> s[i].data != [] && (s[i].markerEnabled <==> |s[i].data| < MarkerLimit))
  {
  }

  /**
   * At most two series, calls before puts; each is present iff its type has
   * a plottable row; it carries that type's name, colour and curve, and its
   * marker is on iff it has fewer than 30 points.
   */
  lemma StrikeChartShape(rows: seq<Record>, m: Metric)
    ensures var s := StrikeChart(rows, m);
            && |s| == (if HasPlottable(rows, Call, m) then 1 else 0) + (if HasPlottable(rows, Put, m) then 1 else 0)
            && (HasPlottable(rows, Call, m) ==>
                  s[0] == StrikeSeries(CallName, Curve(rows, Call, m), CallColor, |Curve(rows, Call, m)| < MarkerLimit))
            && (HasPlottable(rows, Put, m) ==>
                  s[|s| - 1] == StrikeSeries(PutName, Curve(rows, Put, m), PutColor, |Curve(rows, Put, m)| < MarkerLimit))
            && (forall i :: 0 <= i < |s| ==> s[i].data != [] && (s[i].markerEnabled <==> |s[i].data| < 30))
  {
    CurveEmpty(rows, Call, m);
    CurveEmpty(rows, Put, m);
    AssembleShape(Curve(rows, Call, m), Curve(rows, Put, m));
  }

  // ---- Candlestick series ----

  /** The candle payload: `t` is required for a chart; the value arrays may be missing. */
  datatype ChartData = ChartData(
    t: Option<seq<real>>,
    o: Option<seq<Option<real>>>,
    h: Option<seq<Option<real>>>,
    l: Option<seq<Option<real>>>,
    c: Option<seq<Option<real>>>,
    v: Option<seq<Option<real>>>)

  datatype Candle = Candle(time: real, open: Option<real>, high: Option<real>, low: Option<real>, close: Option<real>)

  datatype VolumeBar = VolumeBar(time: real, volume: real)

  /**
   * The result of `buildCandlestickSeries`: `null`, a `TypeError` thrown when
   * a value array is missing, or the two series.
   */
  datatype Candlesticks = NoChart | TypeError | Chart(ohlcData: seq<Candle>, volData: seq<VolumeBar>)

  /** `arr[i]`: undefined past the end, null entries stay null. */
  function At(arr: seq<Option<real>>, i: nat): (r: Option<real>)
    ensures i < |arr| ==> r == arr[i]
    ensures i >= |arr| ==> r.None?
  {
    if i < |arr| then arr[i] else None
  }

  /** `!chartData?.t?.length`. */
  predicate NoTimes(chart: Option<ChartData>) {
    chart.None? || chart.value.t.None? || |chart.value.t.value| == 0
  }

  /** `v?.[i] ?? 0`: a missing array, a missing entry and a null entry all read as 0. */
  function VolumeAt(v: Option<seq<Option<real>>>, i: nat): (x: real)
    ensures v.Some? && i < |v.value| && v.value[i].Some? ==> x == v.value[i].value
    ensures v.None? || i >= |v.value| || v.value[i].None? ==> x == 0.0
  {
    if v.Some? then At(v.value, i).GetOr(0.0) else 0.0
  }

  /** `t.map((time, i) => [time * 1000, o[i], h[i], l[i], c[i]])`. */
  function Candles(t: seq<real>, o: seq<Option<real>>, h: seq<Option<real>>,
                   l: seq<Option<real>>, c: seq<Option<real>>): (cs: seq<Candle>)
    ensures |cs| == |t|
    ensures forall i :: 0 <= i < |cs| ==> cs[i].time == t[i] * 1000.0
    ensures forall i :: 0 <= i < |cs| ==>
              cs[i].open == At(o, i) && cs[i].high == At(h, i) && cs[i].low == At(l, i) && cs[i].close == At(c, i)
  {
    seq(|t|, i requires 0 <= i < |t| => Candle(t[i] * 1000.0, At(o, i), At(h, i), At(l, i), At(c, i)))
  }

  /** `t.map((time, i) => [time * 1000, v?.[i] ?? 0])`. */
  function Bars(t: seq<real>, v: Option<seq<Option<real>>>): (bs: seq<VolumeBar>)
    ensures |bs| == |t|
    ensures forall i :: 0 <= i < |bs| ==> bs[i].time == t[i] * 1000.0 && bs[i].volume == VolumeAt(v, i)
  {
    seq(|t|, i requires 0 <= i < |t| => VolumeBar(t[i] * 1000.0, VolumeAt(v, i)))
  }

  function BuildCandlestickSeries(chart: Option<ChartData>): (r: Candlesticks)
    ensures r.NoChart? <==> NoTimes(chart)
    ensures r.TypeError? <==>
              !NoTimes(chart) && (chart.value.o.None? || chart.value.h.None? || chart.value.l.None? || chart.value.c.None?)
    ensures r.Chart? ==> |r.ohlcData| == |r.volData| == |chart.value.t.value|
  {
    if NoTimes(chart) then NoChart
    else
      var d := chart.value;
      var t := d.t.value;
      if d.o.None? || d.h.None? || d.l.None? || d.c.None? then TypeError
      else
        Chart(Candles(t, d.o.value, d.h.value, d.l.value, d.c.value), Bars(t, d.v))
  }

  /** The candle times in seconds, recovered from the chart. */
  function Seconds(cs: seq<Candle>): (ts: seq<real>)
    ensures |ts| == |cs|
  {
    if cs == [] then [] else [cs[0].time / 1000.0] + Seconds(cs[1..])
  }

  function Opens(cs: seq<Candle>): seq<Option<real>> {
    if cs == [] then [] else [cs[0].open] + Opens(cs[1..])
  }

  function Highs(cs: seq<Candle>): seq<Option<real>> {
    if cs == [] then [] else [cs[0].high] + Highs(cs[1..])
  }

  function Lows(cs: seq<Candle>): seq<Option<real>> {
    if cs == [] then [] else [cs[0].low] + Lows(cs[1..])
  }

  function Closes(cs: seq<Candle>): seq<Option<real>> {
    if cs == [] then [] else [cs[0].close] + Closes(cs[1..])
  }

  function Volumes(vs: seq<VolumeBar>): seq<real> {
    if vs == [] then [] else [vs[0].volume] + Volumes(vs[1..])
  }

  /** `v?.[i] ?? 0` for every index of the volume array. */
  function VolumeOrZero(v: seq<Option<real>>): seq<real> {
    if v == [] then [] else [v[0].GetOr(0.0)] + VolumeOrZero(v[1..])
  }

  lemma {:induction false} UnzipCandles(t: seq<real>, o: seq<Option<real>>, h: seq<Option<real>>,
                                         l: seq<Option<real>>, c: seq<Option<real>>)
    requires |o| == |h| == |l| == |c| == |t|
    ensures var cs := Candles(t, o, h, l, c);
            Seconds(cs) == t && Opens(cs) == o && Highs(cs) == h && Lows(cs) == l && Closes(cs) == c
  {
    if t != [] {
      UnzipCandles(t[1..], o[1..], h[1..], l[1..], c[1..]);
      var cs := Candles(t, o, h, l, c);
      assert cs[1..] == Candles(t[1..], o[1..], h[1..], l[1..], c[1..]);
      assert t == [t[0]] + t[1..];
      assert o == [o[0]] + o[1..] && h == [h[0]] + h[1..];
      assert l == [l[0]] + l[1..] && c == [c[0]] + c[1..];
    }
  }

  lemma {:induction false} UnzipVolumes(t: seq<real>, v: seq<Option<real>>)
    requires |v| == |t|
    ensures Volumes(Bars(t, Some(v))) == VolumeOrZero(v)
  {
    if t != [] {
      UnzipVolumes(t[1..], v[1..]);
      assert Bars(t, Some(v))[1..] == Bars(t[1..], Some(v[1..]));
    }
  }

  /**
   * With all arrays as long as `t`, the chart is a lossless positional zip:
   * the times divided by 1000 give back `t`, the candles give back `o`, `h`,
   * `l`, `c`, and the bars give back `v` with nulls read as 0.
   */
  lemma CandlesRoundTrip(d: ChartData)
    requires d.t.Some? && |d.t.value| > 0
    requires d.o.Some? && d.h.Some? && d.l.Some? && d.c.Some? && d.v.Some?
    requires |d.o.value| == |d.h.value| == |d.l.value| == |d.c.value| == |d.v.value| == |d.t.value|
    ensures var r := BuildCandlestickSeries(Some(d));
            && r.Chart?
            && Seconds(r.ohlcData) == d.t.value
            && Opens(r.ohlcData) == d.o.value && Highs(r.ohlcData) == d.h.value
            && Lows(r.ohlcData) == d.l.value && Closes(r.ohlcData) == d.c.value
            && Volumes(r.volData) == VolumeOrZero(d.v.value)
  {
    UnzipCandles(d.t.value, d.o.value, d.h.value, d.l.value, d.c.value);
    UnzipVolumes(d.t.value, d.v.value);
  }

  /** Without a volume array every bar has volume 0; a short array reads as 0 past its end. */
  lemma MissingVolumeIsZero(d: ChartData, i: nat)
    requires !NoTimes(Some(d)) && d.o.Some? && d.h.Some? && d.l.Some? && d.c.Some?
    requires i < |d.t.value|
    requires d.v.None? || i >= |d.v.value| || d.v.value[i].None?
    ensures BuildCandlestickSeries(Some(d)).volData[i] == VolumeBar(d.t.value[i] * 1000.0, 0.0)
  {
  }
}

=== FILE: strike_window.dfy ===
/**
 * The symbol list of the candle panel (the `symbols` memo of src/App.jsx):
 * the soonest expiry of the chosen option type, its strikes in ascending
 * order, the at-the-money strike nearest the spot price, and a window of
 * up to 20 strikes either side of it, shifted inward at the edges so that
 * it always holds min(41, L) strikes.
 */
module StrikeWindow {
  import opened Wrappers
  import opened Seqs
  import opened OptionSymbol
  import opened Normalize
  import opened Aggregate

  /** Strikes on each side of the at-the-money strike. */
  const Side := 20
  /** `TARGET`: the window size when there are enough strikes. */
  const Target := 41

  // ---- Spot price ----

  /** JavaScript truthiness of a coerced number: present and not zero. */
  predicate Truthy(v: Option<real>) {
    v.Some? && v.value != 0.0
  }

  /** `records.find((r) => r.spot_price)?.spot_price`: the first truthy spot price. */
  function FirstSpot(records: seq<Record>): (r: Option<real>)
    ensures r.Some? ==> Truthy(r)
  {
    if records == [] then None
    else if Truthy(records[0].spotPrice) then records[0].spotPrice
    else FirstSpot(records[1..])
  }

  /** `FirstSpot` is the spot of the first record with a truthy one, and null when there is none. */
  lemma {:induction false} FirstSpotIsFirst(records: seq<Record>)
    ensures FirstSpot(records).None? <==> forall i :: 0 <= i < |records| ==> !Truthy(records[i].spotPrice)
    ensures forall i :: 0 <= i < |records| && Truthy(records[i].spotPrice)
                        && (forall j :: 0 <= j < i ==> !Truthy(records[j].spotPrice))
                        ==> FirstSpot(records) == records[i].spotPrice
  {
    if records != [] {
      FirstSpotIsFirst(records[1..]);
      forall i | 1 <= i < |records| ensures records[1..][i - 1] == records[i] { }
    }
  }

  /** The spot the selector measures distance from: `?? 0`. */
  function WindowSpot(records: seq<Record>): (spot: real)
    ensures FirstSpot(records).None? ==> spot == 0.0
    ensures FirstSpot(records).Some? ==> spot == FirstSpot(records).value && spot != 0.0
  {
    FirstSpot(records).GetOr(0.0)
  }

  /** The selector measures from 0 exactly when no record has a truthy spot price. */
  lemma WindowSpotDefault(records: seq<Record>)
    ensures WindowSpot(records) == 0.0 <==> forall i :: 0 <= i < |records| ==> !Truthy(records[i].spotPrice)
  {
    FirstSpotIsFirst(records);
  }

  /** The spot shown in the control bar: `?? null`, and null without data. */
  function DisplayedSpot(data: Option<seq<Record>>): (r: Option<real>)
    ensures r.Some? ==> data.Some? && Truthy(r)
    ensures data.None? ==> r.None?
    ensures data.Some? ==> r == FirstSpot(data.value)
  {
    if data.None? then None else FirstSpot(data.value)
  }

  // ---- Nearest expiry ----

  /** `a < b` on timestamps that may be NaN: false whenever one is. */
  predicate Less(a: Option<int>, b: Option<int>) {
    a.Some? && b.Some? && a.value < b.value
  }

  /** `a === b`: NaN equals nothing, not even itself. */
  predicate StrictEq(a: Option<int>, b: Option<int>) {
    a.Some? && b.Some? && a.value == b.value
  }

  /** `reduce((min, r) => (r.expiry_ms < min ? r.expiry_ms : min), acc)`. */
  function ReduceMin(rs: seq<Record>, acc: Option<int>): (m: Option<int>)
    ensures m.Some? ==> acc.Some? && m.value <= acc.value
  {
    if rs == [] then acc
    else ReduceMin(rs[1..], if Less(rs[0].expiryMs, acc) then rs[0].expiryMs else acc)
  }

  /** The soonest expiry, seeded with the first record's. */
  function NearestExpiry(byType: seq<Record>): (m: Option<int>)
    requires byType != []
    ensures m.Some? ==> byType[0].expiryMs.Some? && m.value <= byType[0].expiryMs.value
  {
    ReduceMin(byType, byType[0].expiryMs)
  }

  /** The expiries of the records that have one. */
  function DatedExpiries(rs: seq<Record>): set<int> {
    set i | 0 <= i < |rs| && rs[i].expiryMs.Some? :: rs[i].expiryMs.value
  }

  lemma {:induction false} ReduceMinIsLeast(rs: seq<Record>, acc: Option<int>)
    requires acc.Some?
    ensures var m := ReduceMin(rs, acc);
            && m.Some?
            && (m == acc || m.value in DatedExpiries(rs))
            && m.value <= acc.value
            && forall k :: k in DatedExpiries(rs) ==> m.value <= k
  {
    if rs != [] {
      var next := if Less(rs[0].expiryMs, acc) then rs[0].expiryMs else acc;
      ReduceMinIsLeast(rs[1..], next);
      if rs[0].expiryMs.Some? {
        assert rs[0].expiryMs.value in DatedExpiries(rs);
      }
      forall k | k in DatedExpiries(rs[1..]) ensures k in DatedExpiries(rs) {
        var i :| 0 <= i < |rs[1..]| && rs[1..][i].expiryMs.Some? && rs[1..][i].expiryMs.value == k;
        assert rs[i + 1] == rs[1..][i];
      }
      var m := ReduceMin(rs[1..], next);
      assert ReduceMin(rs, acc) == m;
      forall k | k in DatedExpiries(rs) ensures m.value <= k {
        var i :| 0 <= i < |rs| && rs[i].expiryMs.Some? && rs[i].expiryMs.value == k;
        if i > 0 {
          assert rs[1..][i - 1] == rs[i];
          assert k in DatedExpiries(rs[1..]);
        }
      }
    }
  }

  /**
   * When the first record of the type has an expiry, the nearest expiry is
   * the least expiry among the records that have one; when it has none
   * (NaN), no comparison succeeds and the result stays NaN.
   */
  lemma NearestIsLeast(byType: seq<Record>)
    requires byType != []
    ensures byType[0].expiryMs.Some? ==>
              && NearestExpiry(byType).Some?
              && NearestExpiry(byType).value in DatedExpiries(byType)
              && forall k :: k in DatedExpiries(byType) ==> NearestExpiry(byType).value <= k
    ensures byType[0].expiryMs.None? ==> NearestExpiry(byType).None?
  {
    if byType[0].expiryMs.Some? {
      ReduceMinIsLeast(byType, byType[0].expiryMs);
      assert byType[0].expiryMs.value in DatedExpiries(byType);
    } else {
      ReduceStaysNaN(byType);
    }
  }

  lemma {:induction false} ReduceStaysNaN(rs: seq<Record>)
    ensures ReduceMin(rs, None).None?
  {
    if rs != [] {
      ReduceStaysNaN(rs[1..]);
    }
  }

  /** `filter(r => r.expiry_ms === nearestExpiry)`, in input order. */
  function AtExpiry(byType: seq<Record>, nearest: Option<int>): (a: seq<Record>)
    ensures |a| <= |byType|
    ensures forall i :: 0 <= i < |a| ==> StrictEq(a[i].expiryMs, nearest)
  {
    Filter(byType, (r: Record) => StrictEq(r.expiryMs, nearest))
  }

  /** The filter keeps every occurrence of a record at that expiry and nothing else, in input order. */
  lemma AtExpiryExact(byType: seq<Record>, nearest: Option<int>, x: Record)
    ensures multiset(AtExpiry(byType, nearest))[x] == if StrictEq(x.expiryMs, nearest) then multiset(byType)[x] else 0
    ensures IsSubsequence(AtExpiry(byType, nearest), byType)
  {
    FilterCount(byType, (r: Record) => StrictEq(r.expiryMs, nearest), x);
    FilterIsSubsequence(byType, (r: Record) => StrictEq(r.expiryMs, nearest));
  }

  /**
   * The records at the nearest expiry, by ascending strike: a rearrangement
   * of `AtExpiry` (see `ExpiryRecordsStable` for the order of equal strikes).
   */
  function ExpiryRecords(byType: seq<Record>, nearest: Option<int>): (e: seq<Record>)
    ensures multiset(e) == multiset(AtExpiry(byType, nearest))
    ensures forall i :: 0 <= i < |e| ==> StrictEq(e[i].expiryMs, nearest)
    ensures forall i :: 0 <= i < |e| ==> e[i] in byType
    ensures SortedBy(e, StrikeOf)
  {
    var atExpiry := AtExpiry(byType, nearest);
    var e := SortBy(atExpiry, StrikeOf);
    assert forall i :: 0 <= i < |e| ==> e[i] in atExpiry by {
      forall i | 0 <= i < |e| ensures e[i] in atExpiry {
        SortByMember(atExpiry, StrikeOf, i);
      }
    }
    assert forall i :: 0 <= i < |e| ==> e[i] in byType by {
      forall i | 0 <= i < |e| ensures e[i] in byType {
        assert e[i] in multiset(atExpiry);
        FilterCount(byType, (r: Record) => StrictEq(r.expiryMs, nearest), e[i]);
      }
    }
    e
  }

  /** Sorting by strike is stable: equal strikes keep their input order. */
  lemma ExpiryRecordsStable(byType: seq<Record>, nearest: Option<int>)
    ensures StableSortOf(ExpiryRecords(byType, nearest), AtExpiry(byType, nearest), StrikeOf)
  {
    SortByIsStableSort(AtExpiry(byType, nearest), StrikeOf);
  }

  /**
   * Nothing at the nearest expiry is lost: a record occurs among the
   * expiry records as often as in the input when it has that expiry, and
   * not at all otherwise.
   */
  lemma ExpiryRecordsComplete(byType: seq<Record>, nearest: Option<int>, x: Record)
    ensures multiset(ExpiryRecords(byType, nearest))[x]
            == if StrictEq(x.expiryMs, nearest) then multiset(byType)[x] else 0
  {
    AtExpiryExact(byType, nearest, x);
  }

  // ---- At-the-money strike ----

  /** `Math.abs(r.strike - spot)`. */
  function Dist(r: Record, spot: real): (d: real)
    ensures d >= 0.0
    ensures d == r.strike - spot || d == spot - r.strike
  {
    if r.strike >= spot then r.strike - spot else spot - r.strike
  }

  /**
   * `atm` is the first index of least distance to the spot (the scan only
   * moves on a strictly smaller distance); 0 when there are no strikes.
   */
  ghost predicate IsAtm(rs: seq<Record>, spot: real, atm: nat) {
    if rs == [] then atm == 0
    else
      && atm < |rs|
      && (forall j :: 0 <= j < |rs| ==> Dist(rs[atm], spot) <= Dist(rs[j], spot))
      && (forall j :: 0 <= j < atm ==> Dist(rs[atm], spot) < Dist(rs[j], spot))
  }

  /** There is only one such index. */
  lemma AtmUnique(rs: seq<Record>, spot: real, a: nat, b: nat)
    requires IsAtm(rs, spot, a) && IsAtm(rs, spot, b)
    ensures a == b
  {
    if rs != [] {
      assert Dist(rs[a], spot) == Dist(rs[b], spot);
    }
  }

  /**
   * The state of the scan after its first `n` steps: the index kept and
   * `minDist`, with `None` standing for the initial `Infinity`.
   */
  function Scan(rs: seq<Record>, spot: real, n: nat): (st: (nat, Option<real>))
    requires n <= |rs|
    ensures st.1.None? <==> n == 0
    ensures n == 0 ==> st.0 == 0
    ensures n > 0 ==> st.0 < n && st.1 == Some(Dist(rs[st.0], spot))
  {
    if n == 0 then (0, None)
    else
      var (atm, minDist) := Scan(rs, spot, n - 1);
      var d := Dist(rs[n - 1], spot);
      if minDist.None? || d < minDist.value then (n - 1, Some(d)) else (atm, minDist)
  }

  lemma {:induction false} ScanFindsFirstLeast(rs: seq<Record>, spot: real, n: nat)
    requires 0 < n <= |rs|
    ensures var atm := Scan(rs, spot, n).0;
            && (forall j :: 0 <= j < n ==> Dist(rs[atm], spot) <= Dist(rs[j], spot))
            && (forall j :: 0 <= j < atm ==> Dist(rs[atm], spot) < Dist(rs[j], spot))
  {
    if n > 1 {
      ScanFindsFirstLeast(rs, spot, n - 1);
    }
  }

  /** The index the scan settles on. */
  function AtmIndex(rs: seq<Record>, spot: real): (atm: nat)
    ensures atm < |rs| || atm == 0
  {
    Scan(rs, spot, |rs|).0
  }

  lemma AtmIndexIsAtm(rs: seq<Record>, spot: real)
    ensures IsAtm(rs, spot, AtmIndex(rs, spot))
  {
    if rs != [] {
      ScanFindsFirstLeast(rs, spot, |rs|);
    }
  }

  /** The `forEach` scan for the at-the-money index. */
  method FindAtm(rs: seq<Record>, spot: real) returns (atm: nat)
    ensures atm == AtmIndex(rs, spot)
    ensures IsAtm(rs, spot, atm)
  {
    atm := 0;
    var minDist: Option<real> := None;
    for i := 0 to |rs|
      invariant (atm, minDist) == Scan(rs, spot, i)
    {
      var d := Dist(rs[i], spot);
      if minDist.None? || d < minDist.value {
        minDist := Some(d);
        atm := i;
      }
    }
    AtmIndexIsAtm(rs, spot);
  }

  // ---- The window ----

  /** Where the window starts: the three cases of the rebalancing. */
  function WindowStart(len: nat, atm: nat): (start: nat)
    ensures start <= len
    ensures atm < len ==> start <= atm
  {
    if atm <= Side then 0
    else if atm + Side + 1 > len then Max(0, len - Target)
    else atm - Side
  }

  function WindowEnd(len: nat, atm: nat): (end: nat)
    ensures WindowStart(len, atm) <= end <= len
    ensures atm < len ==> atm < end
  {
    if atm <= Side then Min(len, Target)
    else if atm + Side + 1 > len then len
    else atm + Side + 1
  }

  /**
   * The window lies inside the strikes, holds min(41, L) of them, and
   * contains the at-the-money strike.
   */
  lemma WindowFits(len: nat, atm: nat)
    requires atm < len || atm == 0
    ensures WindowStart(len, atm) <= WindowEnd(len, atm) <= len
    ensures atm < len ==> WindowStart(len, atm) <= atm < WindowEnd(len, atm)
    ensures WindowEnd(len, atm) - WindowStart(len, atm) == Min(Target, len)
  {
  }

  /** The `start`/`end` computation with its rebalancing, as written. */
  method WindowBounds(len: nat, atm: nat) returns (start: nat, end: nat)
    requires atm < len || atm == 0
    ensures start == WindowStart(len, atm) && end == WindowEnd(len, atm)
    ensures start <= end <= len
  {
    start := Max(0, atm - Side);
    end := Min(len, atm + Side + 1);
    var have := end - start;
    if have < Min(Target, len) {
      if start == 0 {
        end := Min(len, Target);
      } else {
        start := Max(0, end - Target);
      }
    }
  }

  // ---- The selector ----

  /** The window around the at-the-money strike of strike-sorted records `e`. */
  function Window(e: seq<Record>, spot: real): (w: seq<Record>)
    ensures |w| == Min(Target, |e|)
  {
    var atm := AtmIndex(e, spot);
    WindowFits(|e|, atm);
    e[WindowStart(|e|, atm)..WindowEnd(|e|, atm)]
  }

  /** What the `symbols` memo computes from the asset's records (null data counts as none). */
  function Symbols(data: Option<seq<Record>>, t: OptionType): (r: seq<Record>)
    ensures |r| <= Target
  {
    if data.None? || data.value == [] then []
    else
      var records := data.value;
      var byType := OfType(records, t);
      if byType == [] then []
      else Window(ExpiryRecords(byType, NearestExpiry(byType)), WindowSpot(records))
  }

  method SelectSymbols(data: Option<seq<Record>>, optType: OptionType) returns (symbols: seq<Record>)
    ensures symbols == Symbols(data, optType)
  {
    if data.None? || data.value == [] {
      return [];
    }
    var records := data.value;
    var spot := WindowSpot(records);
    var byType := OfType(records, optType);
    if byType == [] {
      return [];
    }
    var nearestExpiry := NearestExpiry(byType);
    var expiryRecords := ExpiryRecords(byType, nearestExpiry);
    var atm := FindAtm(expiryRecords, spot);
    var start, end := WindowBounds(|expiryRecords|, atm);
    symbols := expiryRecords[start..end];
  }

  /** No data, or no record of the chosen type: no symbols. */
  lemma SymbolsEmpty(data: Option<seq<Record>>, t: OptionType)
    ensures data.None? || (forall i :: 0 <= i < |data.value| ==> data.value[i].optionType != t)
            ==> Symbols(data, t) == []
  {
    if data.Some? && (forall i :: 0 <= i < |data.value| ==> data.value[i].optionType != t) {
      FilterNone(data.value, (r: Record) => r.optionType == t);
    }
  }

  /**
   * The window is a contiguous run of `e` holding exactly min(41, |e|)
   * records, among them the at-the-money one.
   */
  lemma WindowShape(e: seq<Record>, spot: real)
    ensures var atm := AtmIndex(e, spot);
            var w := Window(e, spot);
            && |w| == Min(Target, |e|)
            && (e != [] ==> WindowStart(|e|, atm) <= atm < WindowEnd(|e|, atm) && e[atm] in w)
            && (forall i :: 0 <= i < |w| ==> w[i] == e[WindowStart(|e|, atm) + i])
  {
    var atm := AtmIndex(e, spot);
    if e != [] {
      WindowFits(|e|, atm);
      var w := Window(e, spot);
      assert w[atm - WindowStart(|e|, atm)] == e[atm];
    }
  }

  /** A window of strike-sorted records is strike-sorted. */
  lemma WindowSorted(e: seq<Record>, spot: real)
    requires SortedBy(e, StrikeOf)
    ensures SortedBy(Window(e, spot), StrikeOf)
  {
    var atm := AtmIndex(e, spot);
    var a := WindowStart(|e|, atm);
    var w := Window(e, spot);
    forall i, j | 0 <= i < j < |w| ensures StrikeOf(w[i]) <= StrikeOf(w[j]) {
      assert w[i] == e[a + i] && w[j] == e[a + j];
    }
  }

  /** Records drawn from one option type keep that type. */
  lemma ExpiryRecordsOfType(byType: seq<Record>, nearest: Option<int>, t: OptionType)
    requires forall i :: 0 <= i < |byType| ==> byType[i].optionType == t
    ensures forall i :: 0 <= i < |ExpiryRecords(byType, nearest)| ==> ExpiryRecords(byType, nearest)[i].optionType == t
  {
    var e := ExpiryRecords(byType, nearest);
    forall i | 0 <= i < |e| ensures e[i].optionType == t {
      assert e[i] in byType;
      var j :| 0 <= j < |byType| && byType[j] == e[i];
    }
  }

  /** The window keeps whatever holds of every record of `e`. */
  lemma WindowFrom(e: seq<Record>, spot: real, t: OptionType, nearest: Option<int>)
    requires forall i :: 0 <= i < |e| ==> e[i].optionType == t && StrictEq(e[i].expiryMs, nearest)
    ensures var w := Window(e, spot);
            forall i :: 0 <= i < |w| ==> w[i].optionType == t && StrictEq(w[i].expiryMs, nearest)
  {
    WindowShape(e, spot);
  }

  /**
   * The symbols are the window around the at-the-money strike of the
   * records at the nearest expiry, and there are min(41, L) of them, L
   * being the number of those records.
   */
  lemma SymbolsWindow(records: seq<Record>, t: OptionType)
    requires OfType(records, t) != []
    ensures var byType := OfType(records, t);
            var e := ExpiryRecords(byType, NearestExpiry(byType));
            && Symbols(Some(records), t) == Window(e, WindowSpot(records))
            && IsAtm(e, WindowSpot(records), AtmIndex(e, WindowSpot(records)))
            && |Symbols(Some(records), t)| == Min(Target, |e|)
  {
    var byType := OfType(records, t);
    var e := ExpiryRecords(byType, NearestExpiry(byType));
    var spot := WindowSpot(records);
    assert Symbols(Some(records), t) == Window(e, spot);
    AtmIndexIsAtm(e, spot);
  }

  /** Every symbol has the chosen type and the nearest expiry. */
  lemma SymbolsAtNearestExpiry(records: seq<Record>, t: OptionType)
    requires OfType(records, t) != []
    ensures var byType := OfType(records, t);
            var s := Symbols(Some(records), t);
            forall i :: 0 <= i < |s| ==> s[i].optionType == t && StrictEq(s[i].expiryMs, NearestExpiry(byType))
  {
    var byType := OfType(records, t);
    var nearest := NearestExpiry(byType);
    ExpiryRecordsOfType(byType, nearest, t);
    WindowFrom(ExpiryRecords(byType, nearest), WindowSpot(records), t, nearest);
  }

  /** The symbols ascend by strike. */
  lemma SymbolsSorted(records: seq<Record>, t: OptionType)
    requires OfType(records, t) != []
    ensures SortedBy(Symbols(Some(records), t), StrikeOf)
  {
    var byType := OfType(records, t);
    var e := ExpiryRecords(byType, NearestExpiry(byType));
    assert Symbols(Some(records), t) == Window(e, WindowSpot(records));
    WindowSorted(e, WindowSpot(records));
  }
}

=== FILE: text.dfy ===
/** JavaScript's `String.prototype.split` with a one-character separator, and its inverse. */
module Text {

  function Count(s: string, c: char): nat {
    if s == [] then 0 else (if s[0] == c then 1 else 0) + Count(s[1..], c)
  }

  /** The pieces of `s` between occurrences of `sep`, empty pieces included. */
  function Split(s: string, sep: char): (parts: seq<string>)
    ensures |parts| == Count(s, sep) + 1
    ensures forall i :: 0 <= i < |parts| ==> sep !in parts[i]
  {
    if s == [] then [""]
    else if s[0] == sep then [""] + Split(s[1..], sep)
    else
      var rest := Split(s[1..], sep);
      [[s[0]] + rest[0]] + rest[1..]
  }

  /** The pieces joined with `sep` between them (`Array.prototype.join`). */
  function Join(parts: seq<string>, sep: char): string
    requires |parts| >= 1
  {
    if |parts| == 1 then parts[0] else parts[0] + [sep] + Join(parts[1..], sep)
  }

  lemma {:induction false} JoinSplit(s: string, sep: char)
    ensures Join(Split(s, sep), sep) == s
  {
    if s != [] {
      JoinSplit(s[1..], sep);
      var rest := Split(s[1..], sep);
      if s[0] != sep && |rest| > 1 {
        assert Join(rest, sep) == rest[0] + [sep] + Join(rest[1..], sep);
        assert ([[s[0]] + rest[0]] + rest[1..])[1..] == rest[1..];
      } else if s[0] == sep {
        assert ([""] + rest)[1..] == rest;
      }
    }
  }

  lemma {:induction false} SplitNoSeparator(p: string, sep: char)
    requires sep !in p
    ensures Split(p, sep) == [p]
  {
    if p != [] {
      SplitNoSeparator(p[1..], sep);
      assert [p[0]] + p[1..] == p;
    }
  }

  lemma {:induction false} SplitPiece(p: string, sep: char, t: string)
    requires sep !in p
    ensures Split(p + [sep] + t, sep) == [p] + Split(t, sep)
  {
    if p == [] {
      assert (p + [sep] + t)[1..] == t;
    } else {
      assert (p + [sep] + t)[1..] == p[1..] + [sep] + t;
      SplitPiece(p[1..], sep, t);
      assert [p[0]] + p[1..] == p;
    }
  }

  /** Splitting undoes joining pieces that do not contain the separator. */
  lemma {:induction false} SplitJoin(parts: seq<string>, sep: char)
    requires |parts| >= 1
    requires forall i :: 0 <= i < |parts| ==> sep !in parts[i]
    ensures Split(Join(parts, sep), sep) == parts
  {
    if |parts| == 1 {
      SplitNoSeparator(parts[0], sep);
    } else {
      SplitJoin(parts[1..], sep);
      SplitPiece(parts[0], sep, Join(parts[1..], sep));
      assert parts == [parts[0]] + parts[1..];
    }
  }
}

=== FILE: wrappers.dfy ===
/** Optional values: `None` stands for JavaScript's null, undefined and NaN. */
module Wrappers {

  datatype Option<+T> = None | Some(value: T) {

    /** The value, or `default` when absent (JavaScript's `x ?? default`). */
    function GetOr(default: T): T {
      match this
      case Some(v) => v
      case None => default
    }
  }

  function Min(a: int, b: int): int { if a <= b then a else b }

  function Max(a: int, b: int): int { if a >= b then a else b }
}
